=== FILE: README.md ===
# Virtual co-passenger backend, modelled in Dafny

This project models the core of the Express backend of the HackCBS virtual co-passenger.
The core has three parts.

- **The `/api/chat` reply pipeline.** It runs these steps in order:
  - the vision trigger, a case-insensitive test for nine phrases;
  - the prompt rewrite from the vision service's answer;
  - the empty-message gate, which sends the intro set;
  - the missing-key gate, which sends the warning set;
  - the text-generation call, with its connectivity fallback;
  - extraction of the reply object from the generated text (three regex extractors, then a whole-string parse);
  - normalisation into a message list;
  - per-message enrichment with speech audio and a lip-sync transcript.
- **The chat-history store.** Users can list, fetch and create-or-overwrite their own conversations.
- **The credential and token layer.** It covers:
  - salted HMAC password storage;
  - signup and login with their status codes;
  - the bearer-token middleware;
  - one-day JSON Web Tokens.

Every external dependency is an oracle parameter (a function-typed argument) or a value (the `Disk` record for the `audios` directory). Each step of the pipeline is a pure function of its inputs, of these values and of the oracles' answers. The dependencies are:

- the Gemini call;
- ElevenLabs speech with ffmpeg and Rhubarb;
- the vision HTTP service;
- the `audios` directory, as a value;
- `JSON.parse`;
- HMAC-SHA256;
- the random salt;
- `jwt.sign`/`jwt.verify`.

Where a lemma needs a property of an oracle, that property is a named ghost predicate in its `requires`:

- `AuthService.Sound` for the token library;
- `Users.HmacInjective` for the digest;
- `Extraction.BalancedParse` for `JSON.parse`.

A pipeline run records the external calls it made, in order. Properties such as "the vision call comes first" or "the generator is never called" are stated over that record.

The modules follow the source files:

| module | file | source |
|---|---|---|
| `Base` | `base.dfy` | shared types |
| `Text` | `text.dfy` | JavaScript string operations |
| `JsonValue` | `json_value.dfy` | JSON values and truthiness |
| `Lipsync` | `lipsync.dfy` | transcripts |
| `Vision` | `vision.dfy` | vision trigger and rewrite |
| `Extraction` | `extraction.dfy` | reply extraction |
| `ChatPipeline` | `chat_pipeline.dfy` | the handler |
| `AuthService` | `auth_service.dfy` | `service/authService.js` |
| `AuthMiddleware` | `auth_middleware.dfy` | `middleware/authMiddleware.js` |
| `Users` | `users.dfy` | `models/user.js` |
| `AuthRoutes` | `auth_routes.dfy` | `routes/authRoutes.js` |
| `ChatStore` | `chat_store.dfy` | `models/Chat.js` |
| `ChatRoutes` | `chat_routes.dfy` | `routes/chatRoutes.js` |

The source is an ES module, so it runs in strict mode. The model follows from that:

- Enriching a message that is a string, number or boolean assigns a property to a primitive. That throws, and the whole request ends in the top-level `500`.
- A `null` message throws earlier, at the read of `.text`.
- An array message passes through unchanged, because its new properties are not serialised.

The model follows the code where its status codes are unexpected:

- A signup with a missing or empty required field gets `500` "Failed to create user.", not `400`.
- Creating a chat whose messages fail the schema gets `500` "Server error saving chat", not `400`.
- An empty `Authorization` header gets "Token is invalid.", not "No token provided": `"" && …` evaluates to `""`, which is not `null`.

## Model

| member | source | states |
|---|---|---|
| Text.ContainsIff | backend-gemini/index.js:219 | `includes` holds exactly when the phrase occurs at some position of the string |
| Text.SplitJoin | backend-gemini/middleware/authMiddleware.js:8 | `split(' ')` of space-free fields joined by single spaces gives back exactly those fields |
| Text.JoinSplit | backend-gemini/middleware/authMiddleware.js:8 | joining the fields of `split(' ')` with spaces rebuilds the header |
| Vision.ShouldTriggerVisionIff | backend-gemini/index.js:205-220 | the trigger fires iff the lower-cased message contains one of the nine phrases at some position; upper- or lower-casing the message's ASCII letters does not change the answer (case mappings outside ASCII, such as `ſ` upper-casing to `S`, are not modelled) |
| Vision.EmbeddedTriggerTriggers | backend-gemini/index.js:206-219 | any lower-case phrase placed anywhere inside any text makes the message trigger |
| Vision.LookAroundTriggers | backend-gemini/index.js:208 | "Can you look around and tell me what's outside?" triggers |
| Vision.NoTriggerWithoutLetters | backend-gemini/index.js:206-219 | a lower-cased text lacking any of the letters v, l, d, o, c, n triggers nothing |
| Vision.WeatherDoesNotTrigger | backend-gemini/index.js:205-220 | "What's the weather" does not trigger |
| Vision.CallVisionService | backend-gemini/index.js:179-202 | never fails; yields a description exactly when the service answered with `success` and a description, and nothing on failure, timeout or transport error |
| Vision.RewriteMessage | backend-gemini/index.js:237-242 | the replacement prompt is never empty: the description wrapped in the fixed sentence, or the camera-failure sentence when the description is absent or empty |
| Lipsync.FallbacksWellFormed | backend-gemini/index.js:151-163 | both fallback documents have non-decreasing cue times from 0 to their duration 1.0 and start and end with `X` |
| Lipsync.CuesRoundTrip | backend-gemini/index.js:156-163 | the JSON encoding of a cue list decodes back to the same cues |
| Lipsync.TranscriptRoundTrip | backend-gemini/index.js:170-173 | a transcript written as JSON reads back as the same transcript |
| Lipsync.ReadJsonTranscript | backend-gemini/index.js:451-470 | returns the file's parsed content, and the three-cue document when the file is missing or not JSON |
| Extraction.FenceSpan | backend-gemini/index.js:385-386 | a fence match starts at the leftmost opener and ends at the first closing fence after it; none when no opener has a closer |
| Extraction.BraceSpan | backend-gemini/index.js:387 | starts at the first `{`; ends at the next `}` when lazy and at the last `}` when greedy; none without both |
| Extraction.FirstMatch | backend-gemini/index.js:385-387 | no candidate iff neither fence nor the brace pattern matches; a `json` fence match is the candidate whenever there is one; the plain fence only without a `json` fence; when neither fence matches, the candidate is exactly the brace span, without a capture group, whenever the brace pattern matches; a candidate without a capture group occurs exactly then |
| Extraction.ParseReply | backend-gemini/index.js:389-405 | a successful parse of the matched candidate is the result; with no candidate, a successful parse of the whole string is the result; a failed parse of the text tried gives the apology; the whole string is parsed only when no extractor matched |
| Extraction.Normalise | backend-gemini/index.js:407-412 | `null` fails; a truthy `messages` array is used as is; any other truthy `messages` becomes the single apology; otherwise the parsed value is wrapped in a one-element list |
| Extraction.MatchedCandidateDecides | backend-gemini/index.js:390-396 | once an extractor matched, only the candidate's parse decides the result; a candidate that fails to parse gives the apology reply, and the whole string is never parsed |
| Extraction.ApologyNormalises | backend-gemini/index.js:395 | the apology reply normalises to exactly one sad, Idle apology message |
| Extraction.JsonFencedBody | backend-gemini/index.js:385 | for a `json`-fenced reply with no backtick before the fence and a non-empty body without backticks, the candidate is exactly the fenced body, whatever the brace mode |
| Extraction.NoBacktickNoFence | backend-gemini/index.js:385-386 | a reply without backticks matches neither fence extractor |
| Extraction.LazyBraceRejectsNestedObject | backend-gemini/index.js:387-396 | with the lazy pattern, an unfenced reply whose first brace span holds two opening braces outside strings is answered with the apology |
| Extraction.UnfencedNestedReplyFallsBack | backend-gemini/index.js:387-396 | every unfenced `{"<key>":[{…}…` reply is answered with the apology under the lazy pattern |
| Extraction.RequestedShapeFallsBack | backend-gemini/index.js:345-396 | the unfenced reply `{"messages":[{"text":"Hi"}]}` in the requested format gets the apology under the lazy pattern |
| Extraction.GreedyObjectSpan | backend-gemini/index.js:387 | with the greedy pattern, the brace candidate runs from the first `{` to the last `}`, so an object with no `{` before it and no `}` after it is exactly the candidate |
| Extraction.GreedyBraceRecoversObject | backend-gemini/index.js:387-392 | with the greedy pattern, an unfenced reply whose object parses is recovered as that object |
| ChatPipeline.AfterSetup | backend-gemini/index.js:166-175 | after set-up `fallback.json` exists; a missing one now holds the six-cue document; an existing one is untouched; every other transcript and every audio file is as before |
| ChatPipeline.FallbackLipsyncSource | backend-gemini/index.js:166-175 | fallback replies carry the six-cue document when set-up created the file, and the three-cue document when the file is not JSON |
| ChatPipeline.SetupFailureIsServerError | backend-gemini/index.js:225-227 | a failed directory or fallback-file set-up is a `500` before any external call |
| ChatPipeline.IntroSet | backend-gemini/index.js:245-286 | when both intro audio files exist, two replies: "Hey dear... How was your day?", smile, Talking_1, with `intro_0.wav` and the transcript read from `intro_0.json`; then "I missed you so much...", sad, Crying, with `intro_1.wav` and `intro_1.json`. Otherwise one reply with the first text, smile, Talking_1, no audio field and the fallback lip-sync. No reply has any other field |
| ChatPipeline.TextOnlyGreeting | backend-gemini/index.js:245-286 | the text-only greeting agrees with the first voiced greeting on every field except `audio`, which it lacks, and `lipsync`, which is the fallback |
| ChatPipeline.TextOnlyWarning | backend-gemini/index.js:288-328 | the text-only warning has the first voiced warning's expression and animation, a different text and no audio |
| ChatPipeline.WarningSet | backend-gemini/index.js:288-328 | when both warning audio files exist, two replies: the "don't forget to add your API keys" text, angry, Angry, with `api_0.wav` and `api_0.json`; then the "crazy Gemini and ElevenLabs bill" text, smile, Laughing, with `api_1.wav` and `api_1.json`. Otherwise one reply "Please add your API keys to the .env file!", angry, Angry, no audio field and the fallback lip-sync. No reply has any other field |
| ChatPipeline.VisionRunsBeforeGates | backend-gemini/index.js:229-243 | for a triggering message, the vision call is the first external call, whatever the keys |
| ChatPipeline.RewrittenMessageSkipsIntro | backend-gemini/index.js:233-288 | a triggering message never gets the intro set: it gets the warning set when keys are missing; otherwise the generator receives the rewritten prompt |
| ChatPipeline.EmptyMessageGetsIntro | backend-gemini/index.js:245-286 | an absent or empty message gets the intro set with no external call, whatever the keys |
| ChatPipeline.MissingKeysNeverGenerate | backend-gemini/index.js:288-328 | with a key missing or the Gemini key `-`, no generation or speech call happens; a non-triggering message gets the warning set |
| ChatPipeline.GenerationFailureReply | backend-gemini/index.js:361-382 | a failed generation call gives exactly one message: the connectivity text, sad, Idle, `audio: null`, fallback lip-sync; nothing is spoken |
| ChatPipeline.UnparseableReplyApologises | backend-gemini/index.js:389-412 | an unparseable reply ends as one sad, Idle message whose text is the processing apology, or the speaking apology if its own speech fails |
| ChatPipeline.ApologyEnriched | backend-gemini/index.js:415-438 | the apology message stays sad and Idle through enrichment, with its own text when spoken and the speaking apology otherwise |
| ChatPipeline.NullReplyIsServerError | backend-gemini/index.js:407 | a reply that parses to `null` is a `500` |
| ChatPipeline.EnrichItem | backend-gemini/index.js:415-438 | spoken: gains audio and lip-sync, keeps every other field. Unspoken: speaking apology, sad, Idle, fallback lip-sync, other fields kept. Array: unchanged. `null` or primitive: throws |
| ChatPipeline.EnrichFrom | backend-gemini/index.js:415-441 | when no message throws, the output has the same length and order, each entry the enrichment of its own input, with one speech call per index in order; otherwise it fails |
| ChatPipeline.OneReplyPerMessage | backend-gemini/index.js:407-441 | a list of n messages that are objects or arrays yields a `200` with exactly n replies in order, each the enrichment of its own entry, for any n: there is no cap at three |
| ChatPipeline.EnrichStopsAtThrow | backend-gemini/index.js:415-438 | once a message throws, the loop fails and no later message is spoken |
| ChatPipeline.NonObjectItemIsServerError | backend-gemini/index.js:415-438 | a reply list holding `null`, a string, a number or a boolean ends in the top-level `500`, and no message after that entry is spoken |
| ChatPipeline.SpeechFailureIsolated | backend-gemini/index.js:420-438 | when the middle one of three messages cannot be spoken, only it becomes the speaking apology; its neighbours keep their fields and gain audio |
| ChatPipeline.ChatReply | backend-gemini/index.js:222-449 | a failed set-up is a `500` with no call; the first call is the vision call iff set-up succeeds and the message triggers; the generator is called iff set-up succeeds, the effective message is non-empty and the keys are configured, and every generator call carries the effective message |
| ChatPipeline.ChatEndpoint | backend-gemini/index.js:222 | a denied token gives `401` and nothing else; otherwise the handler's run, `200` when messages were sent and `500` otherwise |
| ChatPipeline.UnauthenticatedChatCallsNothing | backend-gemini/index.js:222 | without an unexpired token signed with the secret, the chat endpoint answers `401` and no external service is called |
| AuthService.Secret | backend-gemini/service/authService.js:5 | the signing secret is `JWT_SECRET` when set and non-empty, else the fallback secret; `env` is the process environment when the module is loaded |
| AuthService.IssueClaims | backend-gemini/service/authService.js:9-15 | the payload carries the user's id, email, full name and role, issued now and expiring one day (86400 s) later |
| AuthService.ValidateToken | backend-gemini/service/authService.js:19-27 | the empty token is rejected; an accepted token was signed with the secret for the claims returned and is not expired |
| AuthService.IssuedTokenValidates | backend-gemini/service/authService.js:15-23 | an issued token validates to its payload before expiry and to nothing from expiry on |
| AuthService.AcceptedTokenIsSigned | backend-gemini/service/authService.js:21-26 | any accepted token is the signature, under the same secret, of the claims it yields, and is unexpired |
| AuthMiddleware.BearerToken | backend-gemini/middleware/authMiddleware.js:5-8 | no header gives no token; the empty header gives the empty token; a non-empty header gives a token iff it has at least two space-separated fields, and the token is the second |
| AuthMiddleware.Authenticate | backend-gemini/middleware/authMiddleware.js:4-28 | "no token" exactly when no token could be extracted; "Token is invalid." when the validator rejects the token; proceeds, with exactly the validator's claims as the user, when it accepts the token |
| AuthMiddleware.ProceedIff | backend-gemini/middleware/authMiddleware.js:8-23 | the request proceeds with claims c iff the header's token is the signature of c under the secret and c is unexpired |
| AuthMiddleware.HeaderToken | backend-gemini/middleware/authMiddleware.js:8 | any space-free scheme word followed by a space and a token yields that token: the scheme is not checked |
| AuthMiddleware.IssuedTokenAuthenticates | backend-gemini/middleware/authMiddleware.js:5-23 | a token issued at time `iat` gets through under any scheme word until `iat` + 86400 |
| AuthMiddleware.MalformedHeaders | backend-gemini/middleware/authMiddleware.js:8-19 | missing or space-free headers give "no token"; the empty header and `"<word> "` give "Token is invalid." |
| Users.PreSave | backend-gemini/models/user.js:35-45 | a modified password is replaced by its HMAC under the fresh salt, with the other fields kept; an unmodified one never completes the save |
| Users.FindFrom | backend-gemini/models/user.js:49 | finds the first stored user with the email, and reports none only when no user has it |
| Users.FindByEmailIff | backend-gemini/models/user.js:11-15 | with unique emails, the lookup returns exactly the user holding the email |
| Users.Create | backend-gemini/models/user.js:6-32 | missing or empty required fields are a validation error; a taken email is a duplicate-key error; otherwise a new record with the hashed password, the default image and role `USER` |
| Users.CreatePreservesInvariants | backend-gemini/models/user.js:11-15 | creation keeps emails unique and keeps every stored digest equal to the HMAC of the password set for it |
| Users.MatchPasswordAndGenerateToken | backend-gemini/models/user.js:48-64 | unknown email gives "User not found"; a digest mismatch gives "Incorrect email or password"; otherwise the token for that user |
| Users.LoginIffPassword | backend-gemini/models/user.js:39-60 | with an injective digest, login for a stored email succeeds iff the password equals the one last set for it |
| AuthRoutes.Signup | backend-gemini/routes/authRoutes.js:10-27 | `201` exactly when the user was created; `500` for a validation error; `400` "Email already exists." for a taken email; a failed signup stores nothing |
| AuthRoutes.Login | backend-gemini/routes/authRoutes.js:31-58 | `200` exactly when the password check passed, with the token the user model issued and the id, name, email and role of the stored user; otherwise `400` with the thrown message |
| AuthRoutes.Me | backend-gemini/routes/authRoutes.js:63-74 | `401` with the middleware's error; `404` "User not found." for a vanished user; otherwise the profile without password or salt |
| AuthRoutes.LoginFailuresDistinguished | backend-gemini/routes/authRoutes.js:52-56 | an unknown email and a wrong password give different `400` errors |
| AuthRoutes.DuplicateSignupRejected | backend-gemini/routes/authRoutes.js:22-24 | signing up with an email on file is `400` "Email already exists." and leaves the store unchanged |
| AuthRoutes.SignupLoginMe | backend-gemini/routes/authRoutes.js:10-74 | after signup, login succeeds iff the same password is given, and its token, signed and checked with `AuthService.Secret` of the environment, opens `/me` for a day with the new profile, default image and role `USER` |
| ChatStore.FindOwned | backend-gemini/routes/chatRoutes.js:31-34 | finds a chat only when it exists and belongs to the caller |
| ChatRoutes.Insert | backend-gemini/routes/chatRoutes.js:18 | inserting into a newest-first list keeps it newest first, adds exactly the new entry and keeps all others |
| ChatRoutes.ListFrom | backend-gemini/routes/chatRoutes.js:17-19 | the list is newest first and holds the summary of every chat of the caller, and of nothing else |
| ChatRoutes.ListIff | backend-gemini/routes/chatRoutes.js:15-25 | a chat id is listed iff the chat belongs to the caller; each entry is its id, title and `updatedAt`; no chat twice; newest first |
| ChatRoutes.Get | backend-gemini/routes/chatRoutes.js:29-44 | a malformed id is `500`; another user's chat and a missing chat are both `404` "Chat not found"; an owned chat is sent whole |
| ChatRoutes.TitleOf | backend-gemini/routes/chatRoutes.js:67 | a new chat's title is a prefix of the content of length min(30, its length), followed by `...` whatever the length |
| ChatRoutes.TitleDependsOnFirstThirty | backend-gemini/routes/chatRoutes.js:67 | content of at most 30 characters becomes the title whole, with `...` appended; longer contents with the same first 30 characters get the same title |
| ChatRoutes.Save | backend-gemini/routes/chatRoutes.js:48-85 | absent or empty messages give `400`; a malformed `chatId` gives `500`; a `chatId` that is absent from the store or owned by someone else gives `404`; every error leaves the store unchanged. An owned `chatId` is overwritten in place: same id, owner and title, the messages as sent, no other chat changed. Without `chatId`, creation succeeds iff the first message has content and every message is on the schema, and stores the new chat under the next id with the derived title. Every success is `201` and stamps the chat with the clock |
| ChatRoutes.SavePreservesInv | backend-gemini/routes/chatRoutes.js:58-74 | saving keeps ids below the next id and `updatedAt` stamps distinct and in the past |
| ChatRoutes.SaveOwnershipFrame | backend-gemini/routes/chatRoutes.js:59-74 | a save never changes a chat's owner and never touches another user's chat; only the returned chat can change |
| ChatRoutes.GetAfterSave | backend-gemini/routes/chatRoutes.js:58-80 | fetching a chat just saved gives back what the save returned |
| ChatRoutes.NewestHeadsList | backend-gemini/routes/chatRoutes.js:18 | the caller's most recently written chat is first in the list |
| ChatRoutes.SavedChatListedFirst | backend-gemini/routes/chatRoutes.js:18 | a chat just created or overwritten heads its owner's history list |
| ChatRoutes.CreatedChatValid | backend-gemini/routes/chatRoutes.js:66-73 | a created chat belongs to the caller, holds the messages as sent, all of them on the schema, and is titled from the first message whatever its role |
| ChatRoutes.CreateRejectsInvalid | backend-gemini/models/Chat.js:5-12 | creation with a role other than `user`/`bot`, missing or empty content, or a first message without content is `500` and stores nothing |
| ChatRoutes.UpdateStoresUnchecked | backend-gemini/routes/chatRoutes.js:58-64 | overwriting an owned chat stores the messages exactly as sent, even off the schema, and keeps its title |
| ChatRoutes.ListRoute | backend-gemini/routes/chatRoutes.js:11 | without a valid token the list is `401` with the middleware's error; with one it is the token user's list |
| ChatRoutes.GetRoute | backend-gemini/routes/chatRoutes.js:11 | without a valid token fetching is `401`; with one it runs for the token's user |
| ChatRoutes.SaveRoute | backend-gemini/routes/chatRoutes.js:11 | without a valid token saving is `401` and the store is unchanged; with one it runs for the token's user |
| ChatRoutes.GuardedAccess | backend-gemini/routes/chatRoutes.js:11-34 | a successful fetch returns a chat owned by the user for whom the presented, unexpired token was signed |

## Left out

- The text-generation call is an oracle from the user message to text, or to failure. The fixed instruction text around the message is part of that oracle.
- The speech stage is one oracle per message index. That covers the ElevenLabs request, ffmpeg, Rhubarb and the read-back of the mp3 and the transcript. Its internal steps, the shell command strings and the Rhubarb path are left out.
- The `audios` directory is a value: what exists, what can be written, what each file contains. Concurrent requests sharing `message_<i>` files are not modelled.
- `JSON.parse` is an oracle. The finding lemmas assume only `Extraction.BalancedParse`: whenever a parse succeeds, the text has as many `{` as `}` outside string literals.
- Text.Lower: lower-casing covers ASCII letters only. `toLowerCase` on other scripts is not modelled.
- Vision.ShouldTriggerVisionIff: its case invariance is for ASCII case changes only. In JavaScript, `"viſualize".toUpperCase()` is `"VISUALIZE"`, which triggers while `"viſualize"` does not; the model's `Upper` leaves `ſ` alone.
- AuthService.Secret: `env` is the process environment as the token service module is loaded. `index.js` imports the routes, and through them `service/authService.js`, before it calls `dotenv.config()`, because ES module imports are evaluated first. So a `JWT_SECRET` set only in `.env` is never read, and the fallback secret is used. The module load order is not modelled.
- JSON numbers are reals. Serialisation details are left out, such as the dropped non-index properties of arrays and the two-space indentation of `fallback.json`.
- `GET /`, the `/voices` proxy, the Mongo connection and the start-up call of `createFallbackFiles` are not modelled. The handler runs the same set-up on every request, and that is modelled.
- Database errors are not modelled: the list route's `500` and `/me`'s `500`. Token claims always carry a well-formed id here, so the cast error behind `/me`'s `500` cannot arise.
- Users.PreSave: for an unmodified password the hook returns without calling `next`. That save is modelled as never completing; whether the library then stalls depends on its version. No route reaches it, because only `create` saves users and a new user's password always counts as modified.
- The chat request's `message` is an optional string. A truthy `message` that is not a string (`42`, `true`, `[]`) throws at `toLowerCase` and ends in the handler's `500`; such messages are not modelled.
- User profiles: `models/user.js` sets `timestamps: true`, so the stored user and the `/me` response also carry `createdAt`, `updatedAt` and `__v`. `AuthRoutes.Profile` leaves these three fields out.
- Signup body fields are optional strings. The library casts a non-string value such as `fullName: 42` to the string `"42"` before validation; such values are not modelled.
- Login body fields are present strings. Requests without `email` or `password` are not modelled.
- Save requests carry `messages` as a list of messages with possibly missing fields. Non-array `messages` values and `null` entries are not modelled. Every falsy `chatId` is folded into "absent".
- ChatRoutes.TitleOf: the model counts Unicode scalar values, where `substring(0, 30)` counts UTF-16 code units. A first message with characters outside the Basic Multilingual Plane, such as emoji, gets a longer title here than in the source, which can also cut such a character in half.
- The chat title's schema default "New Chat" is not modelled. Creation always supplies a non-empty title ending in `...`, so the default never applies.
- Timestamps are a logical clock that increases on every write, so no two chats share an `updatedAt`. The order of equal timestamps, `createdAt` and per-message timestamps are left out.
- The token library is two oracles, with the soundness promise stated as `AuthService.Sound`. The signing algorithm and the token format are left out, except that a token is non-empty and has no space in it.
- Vision.CallVisionService: `success` is modelled as a boolean and `description` as an optional string. Other JSON types in the vision service's answer are not modelled.
- The Python vision service and the React frontend are not part of this model.

## Findings

| source | as written | input that shows it | evidently intended | confidence | as-written member | corrected member |
|---|---|---|---|---|---|---|
| backend-gemini/index.js:387 | the non-greedy `/{[\s\S]*?}/` ends the candidate at the first `}` | the unfenced reply `{"messages":[{"text":"Hi"}]}`, which is the very format the prompt asks for: the candidate `{"messages":[{"text":"Hi"}` cannot parse, so the reply becomes the apology | the candidate should run to the object's closing brace, as `/{[\s\S]*}/` does, so that an unfenced object is recovered | not executed; follows from the regex semantics and from any JSON parser rejecting unbalanced braces | Extraction.UnfencedNestedReplyFallsBack | Extraction.GreedyBraceRecoversObject |

`Extraction.RequestedShapeFallsBack` instantiates the as-written lemma at the input in the table. The brace mode is a parameter of `ChatPipeline.ChatReply`. `Extraction.Lazy` is the code as written and `Extraction.Greedy` is the correction. Every pipeline lemma holds for both modes.

=== FILE: auth_middleware.dfy ===
/** The bearer-token guard in front of the protected routes. */
module AuthMiddleware {
  import opened Base
  import opened Text
  import opened AuthService

  const NoTokenError := "No token provided, authorization denied."
  const InvalidTokenError := "Token is invalid."

  /** `401` with the given error, or continue to the route with the token's claims as `req.user`. */
  datatype Decision = Deny(error: string) | Proceed(user: Claims)

  /** `authHeader && authHeader.split(' ')[1]`: `None` is `undefined`. An empty header
      short-circuits to the empty string itself; otherwise the second space-separated field,
      whatever the first one says. */
  function BearerToken(header: Option<string>): (tok: Option<string>)
    ensures header.None? ==> tok.None?
    ensures header == Some("") ==> tok == Some("")
    ensures tok.Some? ==> ' ' !in tok.value
    ensures header.Some? && header.value != "" ==>
      (tok.Some? <==> |Split(header.value, ' ')| >= 2)
    ensures tok.Some? && header.value != "" ==> tok.value == Split(header.value, ' ')[1]
  {
    match header
    case None => None
    case Some(h) =>
      if h == "" then Some("")
      else
        var fields := Split(h, ' ');
        if |fields| >= 2 then Some(fields[1]) else None
  }

  function Authenticate(header: Option<string>, secret: string, now: nat, jwt: Jwt): (d: Decision)
    ensures BearerToken(header).None? <==> d == Deny(NoTokenError)
    ensures BearerToken(header).Some? && ValidateToken(BearerToken(header).value, secret, now, jwt).None? ==>
      d == Deny(InvalidTokenError)
    ensures BearerToken(header).Some? && ValidateToken(BearerToken(header).value, secret, now, jwt).Some? ==>
      d == Proceed(ValidateToken(BearerToken(header).value, secret, now, jwt).value)
    ensures d.Proceed? ==> ValidateToken(BearerToken(header).value, secret, now, jwt) == Some(d.user)
  {
    match BearerToken(header)
    case None => Deny(NoTokenError)
    case Some(tok) =>
      match ValidateToken(tok, secret, now, jwt)
      case None => Deny(InvalidTokenError)
      case Some(c) => Proceed(c)
  }

  /** The middleware lets a request through exactly when its header carries, as second field,
      a token signed with the secret for the claims it yields, before their expiry. */
  lemma ProceedIff(header: Option<string>, secret: string, now: nat, jwt: Jwt, c: Claims)
    requires Sound(jwt)
    ensures Authenticate(header, secret, now, jwt) == Proceed(c) <==>
      BearerToken(header) == Some(jwt.sign(c, secret)) && now < c.exp
  {
    if BearerToken(header) == Some(jwt.sign(c, secret)) && now < c.exp {
      assert jwt.sign(c, secret) != "";
      assert jwt.verify(jwt.sign(c, secret), secret, now) == if now < c.exp then Some(c) else None;
    }
  }

  /** A `"<scheme> <token>"` header yields the token whatever the scheme word is. */
  lemma HeaderToken(scheme: string, tok: string)
    requires ' ' !in scheme && ' ' !in tok
    ensures BearerToken(Some(scheme + " " + tok)) == Some(tok)
  {
    var h := scheme + " " + tok;
    assert Join([scheme, tok], ' ') == h;
    SplitJoin([scheme, tok], ' ');
  }

  /** A token issued at `iat` authenticates, under any scheme word, for one day. */
  lemma IssuedTokenAuthenticates(scheme: string, id: UserId, email: string, fullName: string, role: Role,
                                 iat: nat, now: nat, secret: string, jwt: Jwt)
    requires Sound(jwt) && ' ' !in scheme && now < iat + TokenLifetime
    ensures Authenticate(Some(scheme + " " + CreateTokenForUser(id, email, fullName, role, iat, secret, jwt)),
                         secret, now, jwt)
            == Proceed(IssueClaims(id, email, fullName, role, iat))
  {
    var c := IssueClaims(id, email, fullName, role, iat);
    var tok := jwt.sign(c, secret);
    assert ' ' !in tok;
    HeaderToken(scheme, tok);
    ProceedIff(Some(scheme + " " + tok), secret, now, jwt, c);
  }

  /** A missing header, or a non-empty one without a space, is "no token"; the empty header,
      and a header whose second field is empty, are "invalid". */
  lemma MalformedHeaders(h: string, secret: string, now: nat, jwt: Jwt)
    ensures Authenticate(None, secret, now, jwt) == Deny(NoTokenError)
    ensures h != "" && ' ' !in h ==> Authenticate(Some(h), secret, now, jwt) == Deny(NoTokenError)
    ensures Authenticate(Some(""), secret, now, jwt) == Deny(InvalidTokenError)
    ensures ' ' !in h ==> Authenticate(Some(h + " "), secret, now, jwt) == Deny(InvalidTokenError)
  {
    if h != "" && ' ' !in h {
      assert Join([h], ' ') == h;
      SplitJoin([h], ' ');
    }
    if ' ' !in h {
      HeaderToken(h, "");
      assert h + " " + "" == h + " ";
    }
  }
}

=== FILE: auth_routes.dfy ===
/** `POST /api/auth/signup`, `POST /api/auth/login` and `GET /api/auth/me`. */
module AuthRoutes {
  import opened Base
  import opened AuthService
  import opened AuthMiddleware
  import opened Users

  const SignupOk := "User created successfully. Please log in."
  const EmailTaken := "Email already exists."
  const SignupFailed := "Failed to create user."
  const LoginFailed := "An error occurred during login."
  const ProfileMissing := "User not found."

  /** The login response's `user`: the document without password and salt, reduced to four fields. */
  datatype PublicUser = PublicUser(id: UserId, fullName: string, email: string, role: Role)
  datatype LoginPayload = LoginPayload(token: string, user: PublicUser)

  /** The `/me` response: the document without password and salt (timestamps left out). */
  datatype Profile = Profile(id: UserId, fullName: string, email: string, profileImageURL: string, role: Role)

  function Signup(db: UserDb, req: SignupRequest, salt: string, hmac: (string, string) -> string): (r: (Reply<string>, UserDb))
    ensures r.0.Ok? <==> Create(db, req, salt, hmac).Created?
    ensures r.0.Ok? ==> r.0 == Ok(201, SignupOk) && r.1 == Create(db, req, salt, hmac).db
    ensures r.0.Err? ==> r.1 == db
    ensures !RequiredPresent(req) ==> r.0 == Err(500, SignupFailed)
    ensures RequiredPresent(req) && FindByEmail(db, req.email.value).Some? ==> r.0 == Err(400, EmailTaken)
  {
    match Create(db, req, salt, hmac)
    case ValidationError => (Err(500, SignupFailed), db)
    case DuplicateKey => (Err(400, EmailTaken), db)
    case Created(_, db') => (Ok(201, SignupOk), db')
  }

  /** The body fields are taken to be present strings. */
  function Login(db: UserDb, email: string, password: string, hmac: (string, string) -> string,
                 now: nat, secret: string, jwt: Jwt): (r: Reply<LoginPayload>)
    ensures r.Ok? <==> MatchPasswordAndGenerateToken(db, email, password, hmac, now, secret, jwt).Success?
    ensures r.Err? ==> r.status == 400 && r.error == MatchPasswordAndGenerateToken(db, email, password, hmac, now, secret, jwt).error
    ensures r.Ok? ==>
      && r.status == 200
      && r.value.token == MatchPasswordAndGenerateToken(db, email, password, hmac, now, secret, jwt).value
      && r.value.user.id in db.records
      && r.value.user.email == email == db.records[r.value.user.id].email
      && r.value.user.fullName == db.records[r.value.user.id].fullName
      && r.value.user.role == db.records[r.value.user.id].role
  {
    match MatchPasswordAndGenerateToken(db, email, password, hmac, now, secret, jwt)
    case Failure(e) => Err(400, if e != "" then e else LoginFailed)
    case Success(token) =>
      var id := FindByEmail(db, email).value;
      var u := db.records[id];
      Ok(200, LoginPayload(token, PublicUser(id, u.fullName, u.email, u.role)))
  }

  function Me(db: UserDb, header: Option<string>, secret: string, now: nat, jwt: Jwt): (r: Reply<Profile>)
    ensures Authenticate(header, secret, now, jwt).Deny? ==>
      r == Err(401, Authenticate(header, secret, now, jwt).error)
    ensures Authenticate(header, secret, now, jwt).Proceed? ==>
      var id := Authenticate(header, secret, now, jwt).user.id;
      if id in db.records then
        r == Ok(200, Profile(id, db.records[id].fullName, db.records[id].email,
                             db.records[id].profileImageURL, db.records[id].role))
      else r == Err(404, ProfileMissing)
  {
    match Authenticate(header, secret, now, jwt)
    case Deny(e) => Err(401, e)
    case Proceed(c) =>
      if c.id in db.records then
        var u := db.records[c.id];
        Ok(200, Profile(c.id, u.fullName, u.email, u.profileImageURL, u.role))
      else Err(404, ProfileMissing)
  }

  /** A failed login says which check failed: no user with that email, or a password whose
      digest does not match. */
  lemma LoginFailuresDistinguished(db: UserDb, email: string, q: string, hmac: (string, string) -> string,
                                   now: nat, secret: string, jwt: Jwt)
    requires Valid(db)
    ensures (forall id :: id in db.records ==> db.records[id].email != email) ==>
      Login(db, email, q, hmac, now, secret, jwt) == Err(400, UserNotFound)
    ensures forall id :: id in db.records && db.records[id].email == email &&
                         hmac(db.records[id].salt, q) != db.records[id].password ==>
      Login(db, email, q, hmac, now, secret, jwt) == Err(400, WrongPassword)
    ensures UserNotFound != WrongPassword
  {
    forall id | id in db.records && db.records[id].email == email
      ensures FindByEmail(db, email) == Some(id)
    {
      FindByEmailIff(db, email, id);
    }
    if forall id :: id in db.records ==> db.records[id].email != email {
      assert FindByEmail(db, email).None?;
    }
  }

  /** Signing up with an email already on file is a `400` and stores nothing. */
  lemma DuplicateSignupRejected(db: UserDb, req: SignupRequest, salt: string, hmac: (string, string) -> string)
    requires Valid(db) && RequiredPresent(req)
    requires exists id :: id in db.records && db.records[id].email == req.email.value
    ensures Signup(db, req, salt, hmac) == (Err(400, EmailTaken), db)
  {
    var id :| id in db.records && db.records[id].email == req.email.value;
    FindByEmailIff(db, req.email.value, id);
  }

  /** After a successful signup, logging in with the same email succeeds exactly with the same
      password; the token, signed and checked with the one secret `Secret(env)` that the token
      service reads at start-up, then opens `/me` for one day, showing the new profile with the
      default image and the `USER` role. */
  lemma SignupLoginMe(db: UserDb, req: SignupRequest, salt: string, hmac: (string, string) -> string,
                      plain: map<UserId, string>, q: string, now: nat, later: nat, env: Option<string>, jwt: Jwt)
    requires Valid(db) && PasswordsHashed(db, hmac, plain) && HmacInjective(hmac) && Sound(jwt)
    requires Signup(db, req, salt, hmac).0.Ok?
    requires now <= later < now + TokenLifetime
    ensures var db' := Signup(db, req, salt, hmac).1;
      Login(db', req.email.value, q, hmac, now, Secret(env), jwt).Ok? <==> q == req.password.value
    ensures var db' := Signup(db, req, salt, hmac).1;
      var login := Login(db', req.email.value, q, hmac, now, Secret(env), jwt);
      login.Ok? ==>
        Me(db', Some("Bearer " + login.value.token), Secret(env), later, jwt) ==
          Ok(200, Profile(db.nextId, req.fullName.value, req.email.value, DefaultProfileImage, USER))
  {
    var secret := Secret(env);
    var c := Create(db, req, salt, hmac);
    var db' := c.db;
    var e := req.email.value;
    CreatePreservesInvariants(db, req, salt, hmac, plain);
    FindByEmailIff(db', e, c.id);
    LoginIffPassword(db', e, q, hmac, plain[c.id := req.password.value], now, secret, jwt);
    var login := Login(db', e, q, hmac, now, secret, jwt);
    if login.Ok? {
      var u := db'.records[c.id];
      assert u == User(req.fullName.value, e, salt, hmac(salt, req.password.value), DefaultProfileImage, USER);
      assert FindByEmail(db', e) == Some(c.id);
      assert login.value.token == CreateTokenForUser(c.id, u.email, u.fullName, u.role, now, secret, jwt);
      IssuedTokenAuthenticates("Bearer", c.id, u.email, u.fullName, u.role, now, later, secret, jwt);
      assert "Bearer" + " " + login.value.token == "Bearer " + login.value.token;
    }
  }
}

=== FILE: auth_service.dfy ===
/** Token issue and validation: HS256 JSON Web Tokens signed with the configured secret,
    valid for one day. The signature scheme is an oracle pair whose soundness is a
    precondition of the lemmas that need it. */
module AuthService {
  import opened Base

  /** The signed payload, with the `iat`/`exp` fields the signer adds (seconds). */
  datatype Claims = Claims(id: UserId, email: string, fullName: string, role: Role, iat: nat, exp: nat)

  /** `expiresIn: '1d'`. */
  const TokenLifetime: nat := 86400

  const FallbackSecret := "your-fallback-secret"

  /** `sign(claims, secret)` is `jwt.sign`; `verify(token, secret, now)` is `jwt.verify` at
      clock `now`, `None` when it throws. */
  datatype Jwt = Jwt(sign: (Claims, string) -> string, verify: (string, string, nat) -> Option<Claims>)

  /** What the token library promises: a signed token verifies to its claims until they
      expire and not after; only tokens signed with the same secret verify; a token is
      non-empty and has no space in it (three base64url parts and two dots). */
  ghost predicate Sound(jwt: Jwt)
  {
    && (forall c: Claims, s: string, t: nat {:trigger jwt.verify(jwt.sign(c, s), s, t)} ::
          jwt.verify(jwt.sign(c, s), s, t) == if t < c.exp then Some(c) else None)
    && (forall tok: string, s: string, t: nat {:trigger jwt.verify(tok, s, t)} ::
          jwt.verify(tok, s, t).Some? ==>
            t < jwt.verify(tok, s, t).value.exp && jwt.sign(jwt.verify(tok, s, t).value, s) == tok)
    && (forall c: Claims, s: string {:trigger jwt.sign(c, s)} :: jwt.sign(c, s) != "" && ' ' !in jwt.sign(c, s))
  }

  /** `JWT_SECRET` from the environment, or the built-in fallback when it is unset or empty. */
  function Secret(env: Option<string>): (s: string)
    ensures s != ""
    ensures Truthy(env) ==> s == env.value
    ensures !Truthy(env) ==> s == FallbackSecret
  {
    if Truthy(env) then env.value else FallbackSecret
  }

  /** The payload `createTokenForUser` signs for a user at clock `now`. */
  function IssueClaims(id: UserId, email: string, fullName: string, role: Role, now: nat): (c: Claims)
    ensures c.id == id && c.email == email && c.fullName == fullName && c.role == role
    ensures c.iat == now && c.exp == now + TokenLifetime
  {
    Claims(id, email, fullName, role, now, now + TokenLifetime)
  }

  function CreateTokenForUser(id: UserId, email: string, fullName: string, role: Role,
                              now: nat, secret: string, jwt: Jwt): string
  {
    jwt.sign(IssueClaims(id, email, fullName, role, now), secret)
  }

  /** `validateToken`: the empty token is rejected before the library is asked. */
  function ValidateToken(token: string, secret: string, now: nat, jwt: Jwt): (r: Option<Claims>)
    ensures token == "" ==> r.None?
    ensures Sound(jwt) && r.Some? ==> now < r.value.exp && jwt.sign(r.value, secret) == token
  {
    if token == "" then None else jwt.verify(token, secret, now)
  }

  /** A freshly issued token validates to the user's identity for one day, and not after. */
  lemma IssuedTokenValidates(id: UserId, email: string, fullName: string, role: Role,
                             iat: nat, now: nat, secret: string, jwt: Jwt)
    requires Sound(jwt)
    ensures now < iat + TokenLifetime ==>
      ValidateToken(CreateTokenForUser(id, email, fullName, role, iat, secret, jwt), secret, now, jwt)
        == Some(IssueClaims(id, email, fullName, role, iat))
    ensures now >= iat + TokenLifetime ==>
      ValidateToken(CreateTokenForUser(id, email, fullName, role, iat, secret, jwt), secret, now, jwt).None?
  {
    var c := IssueClaims(id, email, fullName, role, iat);
    var tok := jwt.sign(c, secret);
    assert tok != "";
    assert jwt.verify(jwt.sign(c, secret), secret, now) == if now < c.exp then Some(c) else None;
  }

  /** A token accepted under one secret was signed with that secret for the claims it yields. */
  lemma AcceptedTokenIsSigned(token: string, secret: string, now: nat, jwt: Jwt)
    requires Sound(jwt)
    requires ValidateToken(token, secret, now, jwt).Some?
    ensures token == jwt.sign(ValidateToken(token, secret, now, jwt).value, secret)
    ensures now < ValidateToken(token, secret, now, jwt).value.exp
  {
  }
}

=== FILE: base.dfy ===
/** Shared vocabulary of the backend model: optional values, fallible results,
    HTTP replies, and the identity fields that both the user model and the
    token service refer to. */
module Base {

  /** A value that may be absent (JavaScript `undefined` / `null`). */
  datatype Option<+T> = None | Some(value: T)

  /** The outcome of an operation that can throw: the thrown `Error`'s message on failure. */
  datatype Result<+T> = Success(value: T) | Failure(error: string)

  /** An HTTP reply: a status code with either the route's payload or the `error` text of its JSON body. */
  datatype Reply<+T> = Ok(status: nat, value: T) | Err(status: nat, error: string)

  /** JavaScript truthiness of an optional string: present and not empty. */
  predicate Truthy(s: Option<string>)
  {
    s.Some? && s.value != ""
  }

  /** Mongo `_id` of a user document, as an abstract identifier. */
  type UserId = nat

  /** The two roles a user may hold; `USER` is the schema default. */
  datatype Role = USER | ADMIN
}

=== FILE: chat_pipeline.dfy ===
/** The `/api/chat` reply pipeline: set-up of the fallback files, the vision step,
    the empty-message and missing-key gates, text generation, reply extraction and
    per-message speech enrichment. Every external call is an oracle, and each run
    records which oracles it called, in order. */
module ChatPipeline {
  import opened Base
  import opened JsonValue
  import opened Lipsync
  import opened Vision
  import opened Extraction
  import opened AuthService
  import opened AuthMiddleware

  /** The two API keys read from the environment at start-up. */
  datatype Config = Config(elevenLabsKey: Option<string>, geminiKey: Option<string>)

  /** Both keys are set, and the Gemini key is not the `"-"` placeholder. */
  predicate KeysConfigured(cfg: Config)
  {
    Truthy(cfg.elevenLabsKey) && Truthy(cfg.geminiKey) && cfg.geminiKey.value != "-"
  }

  /** The body of `POST /api/chat`. */
  datatype ChatRequest = ChatRequest(message: Option<string>, videoUrl: Option<string>)

  datatype AudioFile = Intro0Wav | Intro1Wav | Api0Wav | Api1Wav
  datatype TranscriptFile = Intro0Json | Intro1Json | Api0Json | Api1Json | FallbackJson

  /** The `audios` directory: whether it exists, whether it can be created and written, the
      base64 content of each readable audio file, and the parsed content of each transcript
      file (`None` for a file whose text is not JSON). */
  datatype Disk = Disk(
    dirExists: bool,
    writable: bool,
    audio: map<AudioFile, string>,
    transcripts: map<TranscriptFile, Option<Json>>)

  /** `ensureDirectoryExists("audios")` and `createFallbackFiles()` both complete. */
  predicate SetupSucceeds(d: Disk)
  {
    (d.dirExists || d.writable) && (FallbackJson in d.transcripts || d.writable)
  }

  /** The disk after set-up: `fallback.json` holds the six-cue document if it was missing. */
  function AfterSetup(d: Disk): (d': Disk)
    ensures FallbackJson in d'.transcripts
    ensures FallbackJson in d.transcripts ==> d' == d
    ensures FallbackJson !in d.transcripts ==> d'.transcripts[FallbackJson] == Some(ToJson(SixCueFallback))
    ensures d'.audio == d.audio
    ensures forall f :: f != FallbackJson ==>
      (f in d'.transcripts <==> f in d.transcripts) && (f in d.transcripts ==> d'.transcripts[f] == d.transcripts[f])
  {
    if FallbackJson in d.transcripts then d
    else d.(dirExists := true, transcripts := d.transcripts[FallbackJson := Some(ToJson(SixCueFallback))])
  }

  /** `readJsonTranscript(path.join("audios", f))`. */
  function ReadTranscript(d: Disk, f: TranscriptFile): Json
  {
    ReadJsonTranscript(if f in d.transcripts then d.transcripts[f] else None)
  }

  /** One message's speech step, `textToSpeechElevenLabs` then `lipSyncMessage` then reading
      the mp3 back: `Spoken` with the base64 audio and the parsed `message_<i>.json`
      (`None` when that file cannot be read or parsed), or `Unspoken` when any stage threw. */
  datatype Speech = Spoken(audio: string, transcript: Option<Json>) | Unspoken

  /** The external calls of the endpoint. `generate` receives the user message (the fixed
      instruction template around it is part of the oracle) and is `None` when it throws;
      `parse` is `JSON.parse`, `None` when it throws. */
  datatype Services = Services(
    vision: string -> VisionAnswer,
    generate: string -> Option<string>,
    parse: string -> Option<Json>,
    speak: (nat, Option<Json>) -> Speech)

  datatype Call = VisionCall(url: string) | GenerateCall(message: string) | SpeakCall(index: nat)

  /** A `200` with the message list, or the top-level `500` ("Failed to process chat request"). */
  datatype Outcome = Sent(messages: seq<Json>) | ServerError

  datatype Run = Run(outcome: Outcome, calls: seq<Call>)

  /** How a reply built by the endpoint carries audio: no `audio` key, `audio: null`, or base64. */
  datatype Audio = NoAudio | NullAudio | Base64(data: string)

  function Reply(text: string, expression: string, animation: string, audio: Audio, lipsync: Json): (m: Json)
    ensures m.JObj?
    ensures m.Has("text", JStr(text)) && m.Has("facialExpression", JStr(expression))
    ensures m.Has("animation", JStr(animation)) && m.Has("lipsync", lipsync)
    ensures audio.NoAudio? <==> "audio" !in m.props
    ensures audio.NullAudio? ==> m.Has("audio", JNull)
    ensures audio.Base64? ==> m.Has("audio", JStr(audio.data))
    ensures forall k :: k in m.props ==> k in {"text", "facialExpression", "animation", "lipsync", "audio"}
  {
    var base := map["text" := JStr(text), "facialExpression" := JStr(expression),
                    "animation" := JStr(animation), "lipsync" := lipsync];
    match audio
    case NoAudio => JObj(base)
    case NullAudio => JObj(base["audio" := JNull])
    case Base64(data) => JObj(base["audio" := JStr(data)])
  }

  /** A reply object with exactly the given text, expression, animation and lip-sync, and
      no field besides those four and `audio`. */
  predicate Canned(m: Json, text: string, expression: string, animation: string, lipsync: Json)
  {
    && m.JObj?
    && m.Has("text", JStr(text)) && m.Has("facialExpression", JStr(expression))
    && m.Has("animation", JStr(animation)) && m.Has("lipsync", lipsync)
    && forall k :: k in m.props ==> k in {"text", "facialExpression", "animation", "lipsync", "audio"}
  }

  const IntroText0 := "Hey dear... How was your day?"
  const IntroText1 := "I missed you so much... Please don't go for so long!"
  const KeyWarning0 := "Please my dear, don't forget to add your API keys!"
  const KeyWarning1 := "You don't want to ruin Wawa Sensei with a crazy Gemini and ElevenLabs bill, right?"
  const KeyWarningShort := "Please add your API keys to the .env file!"
  const ConnectivityText :=
    "I'm having trouble connecting to my brain right now. Please check your internet connection and try again!"
  const TroubleText := "I'm having trouble speaking right now."

  /** The greeting for an empty message: two voiced replies when both intro audio files can be
      read, otherwise one text-only reply with the fallback lip-sync. */
  function IntroSet(d: Disk, fallback: Json): (ms: seq<Json>)
    ensures Intro0Wav in d.audio && Intro1Wav in d.audio ==>
      && |ms| == 2
      && Canned(ms[0], IntroText0, "smile", "Talking_1", ReadTranscript(d, Intro0Json))
      && ms[0].Has("audio", JStr(d.audio[Intro0Wav]))
      && Canned(ms[1], IntroText1, "sad", "Crying", ReadTranscript(d, Intro1Json))
      && ms[1].Has("audio", JStr(d.audio[Intro1Wav]))
    ensures !(Intro0Wav in d.audio && Intro1Wav in d.audio) ==>
      |ms| == 1 && Canned(ms[0], IntroText0, "smile", "Talking_1", fallback) && "audio" !in ms[0].props
  {
    if Intro0Wav in d.audio && Intro1Wav in d.audio then
      [Reply(IntroText0, "smile", "Talking_1", Base64(d.audio[Intro0Wav]), ReadTranscript(d, Intro0Json)),
       Reply(IntroText1, "sad", "Crying", Base64(d.audio[Intro1Wav]), ReadTranscript(d, Intro1Json))]
    else
      [Reply(IntroText0, "smile", "Talking_1", NoAudio, fallback)]
  }

  /** The missing-key warning: two voiced replies when both warning audio files can be read,
      otherwise one text-only reply with the fallback lip-sync. */
  function WarningSet(d: Disk, fallback: Json): (ms: seq<Json>)
    ensures Api0Wav in d.audio && Api1Wav in d.audio ==>
      && |ms| == 2
      && Canned(ms[0], KeyWarning0, "angry", "Angry", ReadTranscript(d, Api0Json))
      && ms[0].Has("audio", JStr(d.audio[Api0Wav]))
      && Canned(ms[1], KeyWarning1, "smile", "Laughing", ReadTranscript(d, Api1Json))
      && ms[1].Has("audio", JStr(d.audio[Api1Wav]))
    ensures !(Api0Wav in d.audio && Api1Wav in d.audio) ==>
      |ms| == 1 && Canned(ms[0], KeyWarningShort, "angry", "Angry", fallback) && "audio" !in ms[0].props
  {
    if Api0Wav in d.audio && Api1Wav in d.audio then
      [Reply(KeyWarning0, "angry", "Angry", Base64(d.audio[Api0Wav]), ReadTranscript(d, Api0Json)),
       Reply(KeyWarning1, "smile", "Laughing", Base64(d.audio[Api1Wav]), ReadTranscript(d, Api1Json))]
    else
      [Reply(KeyWarningShort, "angry", "Angry", NoAudio, fallback)]
  }

  /** The text-only greeting is the first voiced greeting without its audio and with the
      fallback lip-sync. */
  lemma TextOnlyGreeting(voiced: Disk, silent: Disk, fallback: Json)
    requires Intro0Wav in voiced.audio && Intro1Wav in voiced.audio && Intro0Wav !in silent.audio
    ensures var t, v := IntroSet(silent, fallback)[0], IntroSet(voiced, fallback)[0];
      && (forall k :: k != "audio" && k != "lipsync" ==> t.Get(k) == v.Get(k))
      && t.Get("audio").None? && t.Get("lipsync") == Some(fallback)
  {
  }

  /** The text-only warning keeps the first voiced warning's mood, in other words. */
  lemma TextOnlyWarning(voiced: Disk, silent: Disk, fallback: Json)
    requires Api0Wav in voiced.audio && Api1Wav in voiced.audio && Api1Wav !in silent.audio
    ensures var w, v := WarningSet(silent, fallback)[0], WarningSet(voiced, fallback)[0];
      && w.Get("facialExpression") == v.Get("facialExpression") && w.Get("animation") == v.Get("animation")
      && w.Get("text") != v.Get("text") && w.Get("audio").None?
  {
  }

  /** Enrichment of the message at index `i`. `None` is an exception that escapes the loop:
      reading `.text` of `null`, or (strict mode) setting a property on a string, number
      or boolean. An array is left as it is, since `res.send` drops non-index properties. */
  function EnrichItem(item: Json, i: nat, speak: (nat, Option<Json>) -> Speech, fallback: Json): (r: Option<Json>)
    ensures r.Some? <==> item.JObj? || item.JArr?
    ensures item.JArr? ==> r == Some(item)
    ensures item.JObj? && speak(i, item.Get("text")).Spoken? ==>
      && r.Some? && r.value.JObj?
      && r.value.Has("audio", JStr(speak(i, item.Get("text")).audio))
      && r.value.Has("lipsync", ReadJsonTranscript(speak(i, item.Get("text")).transcript))
      && (forall k :: k != "audio" && k != "lipsync" ==>
            (k in r.value.props <==> k in item.props) && (k in item.props ==> r.value.props[k] == item.props[k]))
    ensures item.JObj? && speak(i, item.Get("text")).Unspoken? ==>
      && r.Some? && r.value.JObj?
      && r.value.Has("text", JStr(TroubleText))
      && r.value.Has("facialExpression", JStr("sad"))
      && r.value.Has("animation", JStr("Idle"))
      && r.value.Has("lipsync", fallback)
      && (forall k :: k !in {"text", "facialExpression", "animation", "lipsync"} ==>
            (k in r.value.props <==> k in item.props) && (k in item.props ==> r.value.props[k] == item.props[k]))
  {
    match item
    case JNull => None
    case JObj(p) =>
      (match speak(i, item.Get("text"))
       case Spoken(audio, transcript) =>
         Some(JObj(p["audio" := JStr(audio)]["lipsync" := ReadJsonTranscript(transcript)]))
       case Unspoken =>
         Some(JObj(p["text" := JStr(TroubleText)]["facialExpression" := JStr("sad")]
                    ["animation" := JStr("Idle")]["lipsync" := fallback])))
    case JArr(_) => Some(item)
    case _ => None
  }

  datatype Enriched = Enriched(out: Option<seq<Json>>, calls: seq<Call>)

  /** The `for` loop over `messages[i..]`: strictly in order, each message on its own. */
  function EnrichFrom(items: seq<Json>, i: nat, speak: (nat, Option<Json>) -> Speech, fallback: Json): (r: Enriched)
    requires i <= |items|
    ensures r.out.Some? <==> forall k :: i <= k < |items| ==> EnrichItem(items[k], k, speak, fallback).Some?
    ensures r.out.Some? ==>
      && |r.out.value| == |items| - i
      && (forall k :: 0 <= k < |r.out.value| ==> r.out.value[k] == EnrichItem(items[i + k], i + k, speak, fallback).value)
      && |r.calls| == |items| - i
      && (forall k :: 0 <= k < |r.calls| ==> r.calls[k] == SpeakCall(i + k))
    ensures forall c :: c in r.calls ==> c.SpeakCall? && i <= c.index < |items|
    decreases |items| - i
  {
    if i == |items| then Enriched(Some([]), [])
    else
      var head := EnrichItem(items[i], i, speak, fallback);
      if head.None? then Enriched(None, if items[i].JNull? then [] else [SpeakCall(i)])
      else
        var rest := EnrichFrom(items, i + 1, speak, fallback);
        var calls := [SpeakCall(i)] + rest.calls;
        assert forall k :: 0 < k < |calls| ==> calls[k] == rest.calls[k - 1];
        if rest.out.None? then Enriched(None, calls)
        else
          var out := [head.value] + rest.out.value;
          assert forall k :: 0 < k < |out| ==> out[k] == rest.out.value[k - 1];
          Enriched(Some(out), calls)
  }

  function VideoUrl(req: ChatRequest): string
  {
    if Truthy(req.videoUrl) then req.videoUrl.value else DefaultVideoUrl
  }

  /** The message is non-empty and holds a trigger phrase. */
  predicate Triggered(req: ChatRequest)
  {
    Truthy(req.message) && ShouldTriggerVision(req.message.value)
  }

  /** The message the rest of the pipeline sees: the vision rewrite of a triggering message. */
  function EffectiveMessage(req: ChatRequest, svc: Services): Option<string>
  {
    if Triggered(req) then Some(RewriteMessage(CallVisionService(svc.vision(VideoUrl(req)))))
    else req.message
  }

  /** The fallback lip-sync document every fallback reply carries. */
  function FallbackLipsync(d: Disk): Json
  {
    ReadTranscript(AfterSetup(d), FallbackJson)
  }

  /** The `/api/chat` handler after authentication. */
  function ChatReply(cfg: Config, req: ChatRequest, disk: Disk, svc: Services, mode: BraceMatch): (r: Run)
    ensures !SetupSucceeds(disk) ==> r == Run(ServerError, [])
    ensures (|r.calls| > 0 && r.calls[0].VisionCall?) <==> SetupSucceeds(disk) && Triggered(req)
    ensures SetupSucceeds(disk) && Truthy(EffectiveMessage(req, svc)) && KeysConfigured(cfg) ==>
      GenerateCall(EffectiveMessage(req, svc).value) in r.calls
    ensures !(SetupSucceeds(disk) && Truthy(EffectiveMessage(req, svc)) && KeysConfigured(cfg)) ==>
      forall c :: c in r.calls ==> !c.GenerateCall?
    ensures forall c :: c in r.calls && c.GenerateCall? ==> Some(c.message) == EffectiveMessage(req, svc)
  {
    if !SetupSucceeds(disk) then Run(ServerError, [])
    else
      var d := AfterSetup(disk);
      var fallback := FallbackLipsync(disk);
      var pre := if Triggered(req) then [VisionCall(VideoUrl(req))] else [];
      var message := EffectiveMessage(req, svc);
      if !Truthy(message) then Run(Sent(IntroSet(d, fallback)), pre)
      else if !KeysConfigured(cfg) then Run(Sent(WarningSet(d, fallback)), pre)
      else
        var calls := pre + [GenerateCall(message.value)];
        match svc.generate(message.value)
        case None => Run(Sent([Reply(ConnectivityText, "sad", "Idle", NullAudio, fallback)]), calls)
        case Some(raw) =>
          match Normalise(ParseReply(raw, svc.parse, mode))
          case None => Run(ServerError, calls)
          case Some(items) =>
            var e := EnrichFrom(items, 0, svc.speak, fallback);
            Run(if e.out.Some? then Sent(e.out.value) else ServerError, calls + e.calls)
  }

  // ----- properties of the pipeline -----

  /** A failed set-up is a `500` before any external call. */
  lemma SetupFailureIsServerError(cfg: Config, req: ChatRequest, disk: Disk, svc: Services, mode: BraceMatch)
    requires !SetupSucceeds(disk)
    ensures ChatReply(cfg, req, disk, svc, mode) == Run(ServerError, [])
  {
  }

  /** The fallback lip-sync is the six-cue document when set-up had to create `fallback.json`,
      and the three-cue document when the existing file is not JSON. */
  lemma FallbackLipsyncSource(d: Disk)
    ensures FallbackJson !in d.transcripts ==> FromJson(FallbackLipsync(d)) == Some(SixCueFallback)
    ensures FallbackJson in d.transcripts && d.transcripts[FallbackJson].None? ==>
      FromJson(FallbackLipsync(d)) == Some(ThreeCueFallback)
  {
    TranscriptRoundTrip(SixCueFallback);
  }

  /** The vision call is the first external call of a triggering request, whatever the keys. */
  lemma VisionRunsBeforeGates(cfg: Config, req: ChatRequest, disk: Disk, svc: Services, mode: BraceMatch)
    requires SetupSucceeds(disk) && Triggered(req)
    ensures |ChatReply(cfg, req, disk, svc, mode).calls| >= 1
    ensures ChatReply(cfg, req, disk, svc, mode).calls[0] == VisionCall(VideoUrl(req))
  {
    var msg := EffectiveMessage(req, svc);
    assert Truthy(msg);
  }

  /** A vision-rewritten message never reaches the greeting: it gets the key warning when keys
      are missing, and otherwise the generator receives the rewrite, not the user's words. */
  lemma RewrittenMessageSkipsIntro(cfg: Config, req: ChatRequest, disk: Disk, svc: Services, mode: BraceMatch)
    requires SetupSucceeds(disk) && Triggered(req)
    ensures !KeysConfigured(cfg) ==>
      ChatReply(cfg, req, disk, svc, mode) ==
        Run(Sent(WarningSet(AfterSetup(disk), FallbackLipsync(disk))), [VisionCall(VideoUrl(req))])
    ensures KeysConfigured(cfg) ==>
      && |ChatReply(cfg, req, disk, svc, mode).calls| >= 2
      && ChatReply(cfg, req, disk, svc, mode).calls[1] ==
           GenerateCall(RewriteMessage(CallVisionService(svc.vision(VideoUrl(req)))))
  {
    assert Truthy(EffectiveMessage(req, svc));
  }

  /** An absent or empty message gets the greeting, whatever the keys, with no external call. */
  lemma EmptyMessageGetsIntro(cfg: Config, req: ChatRequest, disk: Disk, svc: Services, mode: BraceMatch)
    requires SetupSucceeds(disk) && !Truthy(req.message)
    ensures ChatReply(cfg, req, disk, svc, mode) ==
      Run(Sent(IntroSet(AfterSetup(disk), FallbackLipsync(disk))), [])
  {
  }

  /** With a key missing, only the vision call can happen: no generation and no speech. */
  lemma MissingKeysNeverGenerate(cfg: Config, req: ChatRequest, disk: Disk, svc: Services, mode: BraceMatch)
    requires !KeysConfigured(cfg)
    ensures forall c :: c in ChatReply(cfg, req, disk, svc, mode).calls ==> c.VisionCall?
    ensures SetupSucceeds(disk) && Truthy(req.message) && !Triggered(req) ==>
      ChatReply(cfg, req, disk, svc, mode) ==
        Run(Sent(WarningSet(AfterSetup(disk), FallbackLipsync(disk))), [])
  {
  }

  /** A failed generation call is answered by exactly one reply: the connectivity apology,
      sad, Idle, `audio: null`, with the fallback lip-sync; nothing is spoken. */
  lemma GenerationFailureReply(cfg: Config, req: ChatRequest, disk: Disk, svc: Services, mode: BraceMatch)
    requires SetupSucceeds(disk) && KeysConfigured(cfg)
    requires Truthy(EffectiveMessage(req, svc))
    requires svc.generate(EffectiveMessage(req, svc).value).None?
    ensures ChatReply(cfg, req, disk, svc, mode).outcome.Sent?
    ensures |ChatReply(cfg, req, disk, svc, mode).outcome.messages| == 1
    ensures var m := ChatReply(cfg, req, disk, svc, mode).outcome.messages[0];
      && m.Has("text", JStr(ConnectivityText))
      && m.Has("facialExpression", JStr("sad")) && m.Has("animation", JStr("Idle"))
      && m.Has("audio", JNull) && m.Has("lipsync", FallbackLipsync(disk))
    ensures forall c :: c in ChatReply(cfg, req, disk, svc, mode).calls ==> !c.SpeakCall?
  {
  }

  /** When the parsed reply yields a list of objects and arrays, the response has one message
      per entry, in order, each the enrichment of its own entry: no cap at three. */
  lemma OneReplyPerMessage(cfg: Config, req: ChatRequest, disk: Disk, svc: Services, mode: BraceMatch, raw: string, items: seq<Json>)
    requires SetupSucceeds(disk) && KeysConfigured(cfg)
    requires Truthy(EffectiveMessage(req, svc))
    requires svc.generate(EffectiveMessage(req, svc).value) == Some(raw)
    requires Normalise(ParseReply(raw, svc.parse, mode)) == Some(items)
    requires forall k :: 0 <= k < |items| ==> items[k].JObj? || items[k].JArr?
    ensures ChatReply(cfg, req, disk, svc, mode).outcome.Sent?
    ensures var ms := ChatReply(cfg, req, disk, svc, mode).outcome.messages;
      && |ms| == |items|
      && forall k :: 0 <= k < |items| ==> ms[k] == EnrichItem(items[k], k, svc.speak, FallbackLipsync(disk)).value
  {
    var e := EnrichFrom(items, 0, svc.speak, FallbackLipsync(disk));
    assert e.out.Some?;
  }

  /** A reply that cannot be parsed ends as one sad, Idle message: the processing apology,
      or the speaking apology when its own speech step fails. */
  lemma UnparseableReplyApologises(cfg: Config, req: ChatRequest, disk: Disk, svc: Services, mode: BraceMatch, raw: string)
    requires SetupSucceeds(disk) && KeysConfigured(cfg)
    requires Truthy(EffectiveMessage(req, svc))
    requires svc.generate(EffectiveMessage(req, svc).value) == Some(raw)
    requires ParseReply(raw, svc.parse, mode) == ApologyReply
    ensures ChatReply(cfg, req, disk, svc, mode).outcome.Sent?
    ensures |ChatReply(cfg, req, disk, svc, mode).outcome.messages| == 1
    ensures var m := ChatReply(cfg, req, disk, svc, mode).outcome.messages[0];
      && m.Has("facialExpression", JStr("sad")) && m.Has("animation", JStr("Idle"))
      && (m.Has("text", JStr(ApologyText)) || m.Has("text", JStr(TroubleText)))
  {
    ApologyNormalises();
    OneReplyPerMessage(cfg, req, disk, svc, mode, raw, [ApologyItem]);
    var fallback := FallbackLipsync(disk);
    var ms := ChatReply(cfg, req, disk, svc, mode).outcome.messages;
    assert ms[0] == EnrichItem(ApologyItem, 0, svc.speak, fallback).value;
    ApologyEnriched(svc.speak, fallback);
  }

  /** The apology message, enriched: still sad and Idle, with its own text when spoken and
      the speaking apology when not. */
  lemma ApologyEnriched(speak: (nat, Option<Json>) -> Speech, fallback: Json)
    ensures var m := EnrichItem(ApologyItem, 0, speak, fallback);
      && m.Some? && m.value.Has("facialExpression", JStr("sad")) && m.value.Has("animation", JStr("Idle"))
      && (m.value.Has("text", JStr(ApologyText)) || m.value.Has("text", JStr(TroubleText)))
  {
    var m := EnrichItem(ApologyItem, 0, speak, fallback);
    if speak(0, ApologyItem.Get("text")).Spoken? {
      assert ApologyItem.Has("facialExpression", JStr("sad"));
      assert ApologyItem.Has("animation", JStr("Idle"));
      assert ApologyItem.Has("text", JStr(ApologyText));
    }
  }

  /** A reply that parses to `null` (the text `null`, say) is a `500`. */
  lemma NullReplyIsServerError(cfg: Config, req: ChatRequest, disk: Disk, svc: Services, mode: BraceMatch, raw: string)
    requires SetupSucceeds(disk) && KeysConfigured(cfg)
    requires Truthy(EffectiveMessage(req, svc))
    requires svc.generate(EffectiveMessage(req, svc).value) == Some(raw)
    requires ParseReply(raw, svc.parse, mode) == JNull
    ensures ChatReply(cfg, req, disk, svc, mode).outcome == ServerError
  {
  }

  /** The loop stops at the first message that throws: the run fails, and no message after
      it is spoken. */
  lemma {:induction false} EnrichStopsAtThrow(items: seq<Json>, i: nat, speak: (nat, Option<Json>) -> Speech, fallback: Json, k: nat)
    requires i <= k < |items| && EnrichItem(items[k], k, speak, fallback).None?
    ensures EnrichFrom(items, i, speak, fallback).out.None?
    ensures forall c :: c in EnrichFrom(items, i, speak, fallback).calls ==> c.index <= k
    decreases k - i
  {
    if i < k && EnrichItem(items[i], i, speak, fallback).Some? {
      EnrichStopsAtThrow(items, i + 1, speak, fallback, k);
    }
  }

  /** A reply list holding `null`, a string, a number or a boolean is a `500`: enriching that
      entry throws (reading `.text` of `null`, or a strict-mode write to a primitive), and no
      later entry is spoken. */
  lemma NonObjectItemIsServerError(cfg: Config, req: ChatRequest, disk: Disk, svc: Services, mode: BraceMatch,
                                   raw: string, items: seq<Json>, k: nat)
    requires SetupSucceeds(disk) && KeysConfigured(cfg)
    requires Truthy(EffectiveMessage(req, svc))
    requires svc.generate(EffectiveMessage(req, svc).value) == Some(raw)
    requires Normalise(ParseReply(raw, svc.parse, mode)) == Some(items)
    requires k < |items| && !items[k].JObj? && !items[k].JArr?
    ensures ChatReply(cfg, req, disk, svc, mode).outcome == ServerError
    ensures forall c :: c in ChatReply(cfg, req, disk, svc, mode).calls && c.SpeakCall? ==> c.index <= k
  {
    var fallback := FallbackLipsync(disk);
    EnrichStopsAtThrow(items, 0, svc.speak, fallback, k);
  }

  /** A speech failure on one message changes only that message: with three messages and
      the second unspoken, all three are sent, the second as the speaking apology. */
  lemma SpeechFailureIsolated(items: seq<Json>, speak: (nat, Option<Json>) -> Speech, fallback: Json)
    requires |items| == 3 && forall k :: 0 <= k < 3 ==> items[k].JObj?
    requires speak(1, items[1].Get("text")).Unspoken?
    requires speak(0, items[0].Get("text")).Spoken? && speak(2, items[2].Get("text")).Spoken?
    ensures EnrichFrom(items, 0, speak, fallback).out.Some?
    ensures var ms := EnrichFrom(items, 0, speak, fallback).out.value;
      && |ms| == 3
      && ms[1].Has("text", JStr(TroubleText)) && ms[1].Has("lipsync", fallback)
      && ms[0].Has("audio", JStr(speak(0, items[0].Get("text")).audio))
      && ms[2].Has("audio", JStr(speak(2, items[2].Get("text")).audio))
      && (forall k :: k in items[0].props && k != "audio" && k != "lipsync" ==> ms[0].Has(k, items[0].props[k]))
      && (forall k :: k in items[2].props && k != "audio" && k != "lipsync" ==> ms[2].Has(k, items[2].props[k]))
  {
    var e := EnrichFrom(items, 0, speak, fallback);
    assert e.out.Some?;
    assert e.out.value[0] == EnrichItem(items[0], 0, speak, fallback).value;
    assert e.out.value[1] == EnrichItem(items[1], 1, speak, fallback).value;
    assert e.out.value[2] == EnrichItem(items[2], 2, speak, fallback).value;
  }

  /** `POST /api/chat` behind the bearer-token guard: `200` with the messages, `500`, or the
      guard's `401`. */
  function ChatEndpoint(header: Option<string>, secret: string, now: nat, jwt: Jwt,
                        cfg: Config, req: ChatRequest, disk: Disk, svc: Services, mode: BraceMatch): (r: Reply<Run>)
    ensures r.Err? <==> Authenticate(header, secret, now, jwt).Deny?
    ensures r.Err? ==> r == Err(401, Authenticate(header, secret, now, jwt).error)
    ensures r.Ok? ==> r.value == ChatReply(cfg, req, disk, svc, mode)
    ensures r.Ok? ==> (r.status == 200 <==> r.value.outcome.Sent?) && (r.status == 500 <==> r.value.outcome.ServerError?)
  {
    match Authenticate(header, secret, now, jwt)
    case Deny(e) => Err(401, e)
    case Proceed(_) =>
      var run := ChatReply(cfg, req, disk, svc, mode);
      Ok(if run.outcome.Sent? then 200 else 500, run)
  }

  /** Without a token that was signed with the secret and is unexpired, the chat endpoint
      answers `401` and calls no external service. */
  lemma UnauthenticatedChatCallsNothing(header: Option<string>, secret: string, now: nat, jwt: Jwt,
                                        cfg: Config, req: ChatRequest, disk: Disk, svc: Services, mode: BraceMatch)
    requires Sound(jwt)
    requires forall c: Claims :: BearerToken(header) == Some(jwt.sign(c, secret)) ==> now >= c.exp
    ensures ChatEndpoint(header, secret, now, jwt, cfg, req, disk, svc, mode).Err?
    ensures ChatEndpoint(header, secret, now, jwt, cfg, req, disk, svc, mode).status == 401
  {
    var d := Authenticate(header, secret, now, jwt);
    if d.Proceed? {
      ProceedIff(header, secret, now, jwt, d.user);
    }
  }
}

=== FILE: chat_routes.dfy ===
/** `/api/chat-history`: list a user's chats newest first, fetch one, and create or
    overwrite one. Every route sits behind the bearer-token guard. */
module ChatRoutes {
  import opened Base
  import opened Text
  import opened AuthService
  import opened AuthMiddleware
  import opened ChatStore

  const ListError := "Server error fetching chat history"
  const FetchError := "Server error fetching chat"
  const ChatNotFound := "Chat not found"
  const MessagesRequired := "Messages array is required"
  const SaveError := "Server error saving chat"
  const NotOwned := "Chat not found or user unauthorized"

  /** An `:id` or `chatId` value: a well-formed ObjectId, or a string that does not cast to one. */
  datatype IdParam = ObjectId(id: ChatId) | Malformed

  /** A list entry: `_id`, `title`, `updatedAt`. */
  datatype Summary = Summary(id: ChatId, title: string, updatedAt: nat)

  /** A chat document as the routes send it. */
  datatype ChatDoc = ChatDoc(id: ChatId, chat: Chat)

  predicate Desc(xs: seq<Summary>)
  {
    forall i, j :: 0 <= i < j < |xs| ==> xs[i].updatedAt > xs[j].updatedAt
  }

  /** Insert into a list sorted newest first. */
  function Insert(xs: seq<Summary>, x: Summary): (r: seq<Summary>)
    requires Desc(xs)
    requires forall i :: 0 <= i < |xs| ==> xs[i].updatedAt != x.updatedAt
    ensures Desc(r) && |r| == |xs| + 1
    ensures forall y :: y in r <==> y == x || y in xs
  {
    if |xs| == 0 || x.updatedAt > xs[0].updatedAt then [x] + xs
    else
      var rest := Insert(xs[1..], x);
      assert forall y :: y in xs[1..] ==> y.updatedAt < xs[0].updatedAt;
      [xs[0]] + rest
  }

  function SummaryOf(s: Store, id: ChatId): Summary
    requires id in s.chats
  {
    Summary(id, s.chats[id].title, s.chats[id].updatedAt)
  }

  /** The owned chats among identifiers `k..nextId`, sorted newest first. */
  function ListFrom(s: Store, u: UserId, k: nat): (r: seq<Summary>)
    requires Inv(s)
    ensures Desc(r)
    ensures forall x :: x in r ==> k <= x.id && x.id in s.chats && s.chats[x.id].owner == u && x == SummaryOf(s, x.id)
    ensures forall id :: k <= id && id in s.chats && s.chats[id].owner == u ==> SummaryOf(s, id) in r
    decreases s.nextId - k
  {
    if k >= s.nextId then []
    else
      var rest := ListFrom(s, u, k + 1);
      if k in s.chats && s.chats[k].owner == u then
        assert forall i :: 0 <= i < |rest| ==> rest[i] in rest;
        Insert(rest, SummaryOf(s, k))
      else rest
  }

  /** `Chat.find({ user }).sort({ updatedAt: -1 })`, selecting `_id`, `title`, `updatedAt`. */
  function List(s: Store, u: UserId): seq<Summary>
    requires Inv(s)
  {
    ListFrom(s, u, 0)
  }

  /** The history list holds exactly the user's chats, each once, newest first. */
  lemma ListIff(s: Store, u: UserId, id: ChatId)
    requires Inv(s)
    ensures Desc(List(s, u))
    ensures (exists k :: 0 <= k < |List(s, u)| && List(s, u)[k].id == id) <==> id in s.chats && s.chats[id].owner == u
    ensures forall k :: 0 <= k < |List(s, u)| ==> List(s, u)[k] == SummaryOf(s, List(s, u)[k].id)
    ensures forall i, j :: 0 <= i < j < |List(s, u)| ==> List(s, u)[i].id != List(s, u)[j].id
  {
    var xs := List(s, u);
    if id in s.chats && s.chats[id].owner == u {
      var k :| 0 <= k < |xs| && xs[k] == SummaryOf(s, id);
    }
    forall k | 0 <= k < |xs| ensures xs[k] == SummaryOf(s, xs[k].id) {
      assert xs[k] in xs;
    }
  }

  /** `GET /:id`: a malformed id fails the cast; another user's chat is as absent as a missing one. */
  function Get(s: Store, u: UserId, p: IdParam): (r: Reply<ChatDoc>)
    ensures p.Malformed? ==> r == Err(500, FetchError)
    ensures p.ObjectId? ==>
      if p.id in s.chats && s.chats[p.id].owner == u then r == Ok(200, ChatDoc(p.id, s.chats[p.id]))
      else r == Err(404, ChatNotFound)
  {
    match p
    case Malformed => Err(500, FetchError)
    case ObjectId(id) =>
      match FindOwned(s, id, u)
      case None => Err(404, ChatNotFound)
      case Some(c) => Ok(200, ChatDoc(id, c))
  }

  /** The body of `POST /`: `messages` (`None` when absent) and `chatId` (`None` when falsy). */
  datatype SaveRequest = SaveRequest(messages: Option<seq<Message>>, chatId: Option<IdParam>)

  /** The title of a new chat: the first message's first thirty characters and an ellipsis,
      appended whatever the length. */
  function TitleOf(content: string): (t: string)
    ensures |t| == (if |content| < 30 then |content| else 30) + 3
    ensures t[..|t| - 3] <= content && t[|t| - 3..] == "..."
  {
    Prefix(content, 30) + "..."
  }

  /** A first message of at most thirty characters becomes the title whole; only its first
      thirty characters matter otherwise. */
  lemma TitleDependsOnFirstThirty(a: string, b: string)
    ensures |a| <= 30 ==> TitleOf(a) == a + "..."
    ensures |a| >= 30 && |b| >= 30 && a[..30] == b[..30] ==> TitleOf(a) == TitleOf(b)
  {
    if |a| <= 30 {
      assert TitleOf(a)[..|a|] == a;
    }
  }

  /** Does the request carry a non-empty `messages` array? */
  predicate HasMessages(req: SaveRequest)
  {
    req.messages.Some? && req.messages.value != []
  }

  function Save(s: Store, u: UserId, req: SaveRequest): (r: (Reply<ChatDoc>, Store))
    ensures !HasMessages(req) ==> r == (Err(400, MessagesRequired), s)
    ensures HasMessages(req) && req.chatId == Some(Malformed) ==> r == (Err(500, SaveError), s)
    ensures HasMessages(req) && req.chatId.Some? && req.chatId.value.ObjectId? ==>
      var id := req.chatId.value.id;
      if FindOwned(s, id, u).None? then r == (Err(404, NotOwned), s)
      else
        && r.0.Ok? && r.0.value.id == id
        && r.0.value.chat == s.chats[id].(messages := req.messages.value, updatedAt := s.clock)
        && r.1.chats == s.chats[id := r.0.value.chat] && r.1.nextId == s.nextId
    ensures HasMessages(req) && req.chatId.None? ==>
      (r.0.Ok? <==> Truthy(req.messages.value[0].content) &&
                    forall k :: 0 <= k < |req.messages.value| ==> SchemaValid(req.messages.value[k]))
    ensures HasMessages(req) && req.chatId.None? && r.0.Ok? ==>
      && r.0.value.id == s.nextId && r.1.chats == s.chats[s.nextId := r.0.value.chat]
      && r.1.nextId == s.nextId + 1
      && r.0.value.chat.messages == req.messages.value
      && r.0.value.chat.title == TitleOf(req.messages.value[0].content.value)
    ensures r.0.Err? ==> r.1 == s
    ensures r.0.Ok? ==> r.0.status == 201 && r.1.clock == s.clock + 1
    ensures r.0.Ok? ==> r.0.value.id in r.1.chats && r.1.chats[r.0.value.id] == r.0.value.chat
    ensures r.0.Ok? ==> r.0.value.chat.owner == u && r.0.value.chat.updatedAt == s.clock
  {
    match req.messages
    case None => (Err(400, MessagesRequired), s)
    case Some(ms) =>
      if |ms| == 0 then (Err(400, MessagesRequired), s)
      else
        match req.chatId
        case Some(Malformed) => (Err(500, SaveError), s)
        case Some(ObjectId(id)) =>
          (match FindOwned(s, id, u)
           case None => (Err(404, NotOwned), s)
           case Some(c) =>
             var c' := c.(messages := ms, updatedAt := s.clock);
             (Ok(201, ChatDoc(id, c')), s.(chats := s.chats[id := c'], clock := s.clock + 1)))
        case None =>
          match ms[0].content
          case None => (Err(500, SaveError), s)
          case Some(first) =>
            if !(forall k :: 0 <= k < |ms| ==> SchemaValid(ms[k])) then (Err(500, SaveError), s)
            else
              var c := Chat(u, TitleOf(first), ms, s.clock);
              (Ok(201, ChatDoc(s.nextId, c)),
               Store(s.chats[s.nextId := c], s.nextId + 1, s.clock + 1))
  }

  /** A save keeps the store invariant. */
  lemma SavePreservesInv(s: Store, u: UserId, req: SaveRequest)
    requires Inv(s)
    ensures Inv(Save(s, u, req).1)
  {
  }

  /** A save never touches another user's chat and never changes who owns a chat; it writes
      at most the one chat it returns. */
  lemma SaveOwnershipFrame(s: Store, u: UserId, req: SaveRequest, id: ChatId)
    requires Inv(s)
    ensures var s' := Save(s, u, req).1;
      id in s.chats ==> id in s'.chats && s'.chats[id].owner == s.chats[id].owner
    ensures var s' := Save(s, u, req).1;
      id in s.chats && s.chats[id].owner != u ==> s'.chats[id] == s.chats[id]
    ensures var (r, s') := Save(s, u, req);
      id in s'.chats && (id !in s.chats || s'.chats[id] != s.chats[id]) ==>
        r.Ok? && r.value.id == id && s'.chats[id].owner == u
  {
  }

  /** Fetching a chat just saved gives back what the save returned. */
  lemma GetAfterSave(s: Store, u: UserId, req: SaveRequest)
    requires Inv(s)
    requires Save(s, u, req).0.Ok?
    ensures var (r, s') := Save(s, u, req);
      Get(s', u, ObjectId(r.value.id)) == Ok(200, r.value)
  {
  }

  /** The most recently written of a user's chats heads their list. */
  lemma NewestHeadsList(s: Store, u: UserId, id: ChatId)
    requires Inv(s) && id in s.chats && s.chats[id].owner == u
    requires forall j :: j in s.chats ==> s.chats[j].updatedAt <= s.chats[id].updatedAt
    ensures |List(s, u)| >= 1 && List(s, u)[0].id == id
  {
    var xs := List(s, u);
    ListIff(s, u, id);
    var k :| 0 <= k < |xs| && xs[k].id == id;
    assert xs[0] == SummaryOf(s, xs[0].id);
    assert xs[k] == SummaryOf(s, id);
  }

  /** A chat just saved heads its owner's history list. */
  lemma SavedChatListedFirst(s: Store, u: UserId, req: SaveRequest)
    requires Inv(s)
    requires Save(s, u, req).0.Ok?
    ensures var (r, s') := Save(s, u, req);
      Inv(s') && |List(s', u)| >= 1 && List(s', u)[0].id == r.value.id
  {
    var (r, s') := Save(s, u, req);
    SavePreservesInv(s, u, req);
    NewestHeadsList(s', u, r.value.id);
  }

  /** A newly created chat passed the message schema, belongs to the caller, and is titled
      from its first message. */
  lemma CreatedChatValid(s: Store, u: UserId, ms: seq<Message>)
    requires Save(s, u, SaveRequest(Some(ms), None)).0.Ok?
    ensures var c := Save(s, u, SaveRequest(Some(ms), None)).0.value.chat;
      && c.owner == u && c.messages == ms
      && (forall k :: 0 <= k < |ms| ==> SchemaValid(ms[k]))
      && c.title == Prefix(ms[0].content.value, 30) + "..."
    ensures Save(s, u, SaveRequest(Some(ms), None)).0.value.id == s.nextId
  {
  }

  /** Creation rejects a list whose first message has no content, or with any message off
      the schema, as a server error. */
  lemma CreateRejectsInvalid(s: Store, u: UserId, ms: seq<Message>, k: nat)
    requires |ms| >= 1 && k < |ms| && (ms[0].content.None? || !SchemaValid(ms[k]))
    ensures Save(s, u, SaveRequest(Some(ms), None)) == (Err(500, SaveError), s)
  {
  }

  /** Overwriting an owned chat stores the messages as sent, checked or not: a message with
      an unknown role and no content is kept. */
  lemma UpdateStoresUnchecked(s: Store, u: UserId, id: ChatId, ms: seq<Message>)
    requires |ms| >= 1 && id in s.chats && s.chats[id].owner == u
    ensures var (r, s') := Save(s, u, SaveRequest(Some(ms), Some(ObjectId(id))));
      r.Ok? && s'.chats[id].messages == ms && s'.chats[id].title == s.chats[id].title
    ensures var bad := [Message(Some("admin"), None)];
      var s' := Save(s, u, SaveRequest(Some(bad), Some(ObjectId(id)))).1;
      !SchemaValid(s'.chats[id].messages[0])
  {
  }

  // ----- the routes behind the guard -----

  function ListRoute(s: Store, header: Option<string>, secret: string, now: nat, jwt: Jwt): (r: Reply<seq<Summary>>)
    requires Inv(s)
    ensures Authenticate(header, secret, now, jwt).Deny? ==> r == Err(401, Authenticate(header, secret, now, jwt).error)
    ensures Authenticate(header, secret, now, jwt).Proceed? ==>
      r == Ok(200, List(s, Authenticate(header, secret, now, jwt).user.id))
  {
    match Authenticate(header, secret, now, jwt)
    case Deny(e) => Err(401, e)
    case Proceed(c) => Ok(200, List(s, c.id))
  }

  function GetRoute(s: Store, header: Option<string>, p: IdParam, secret: string, now: nat, jwt: Jwt): (r: Reply<ChatDoc>)
    ensures Authenticate(header, secret, now, jwt).Deny? ==> r == Err(401, Authenticate(header, secret, now, jwt).error)
    ensures Authenticate(header, secret, now, jwt).Proceed? ==> r == Get(s, Authenticate(header, secret, now, jwt).user.id, p)
  {
    match Authenticate(header, secret, now, jwt)
    case Deny(e) => Err(401, e)
    case Proceed(c) => Get(s, c.id, p)
  }

  function SaveRoute(s: Store, header: Option<string>, req: SaveRequest, secret: string, now: nat, jwt: Jwt): (r: (Reply<ChatDoc>, Store))
    ensures Authenticate(header, secret, now, jwt).Deny? ==> r == (Err(401, Authenticate(header, secret, now, jwt).error), s)
    ensures Authenticate(header, secret, now, jwt).Proceed? ==> r == Save(s, Authenticate(header, secret, now, jwt).user.id, req)
  {
    match Authenticate(header, secret, now, jwt)
    case Deny(e) => (Err(401, e), s)
    case Proceed(c) => Save(s, c.id, req)
  }

  /** Through the guard, a request can read or write only chats of the user its token was
      signed for, and only while that token is unexpired. */
  lemma GuardedAccess(s: Store, header: Option<string>, p: IdParam, secret: string, now: nat, jwt: Jwt)
    requires Sound(jwt)
    ensures GetRoute(s, header, p, secret, now, jwt).Ok? ==>
      exists c :: BearerToken(header) == Some(jwt.sign(c, secret)) && now < c.exp
        && GetRoute(s, header, p, secret, now, jwt).value.chat.owner == c.id
  {
    var d := Authenticate(header, secret, now, jwt);
    if GetRoute(s, header, p, secret, now, jwt).Ok? {
      ProceedIff(header, secret, now, jwt, d.user);
    }
  }
}

=== FILE: chat_store.dfy ===
/** The chat collection: one document per conversation, owned by a user, with a title,
    the stored messages and an `updatedAt` stamp. */
module ChatStore {
  import opened Base

  type ChatId = nat

  /** A message as the client sent it: either field may be missing, and nothing about the
      role has been checked. */
  datatype Message = Message(role: Option<string>, content: Option<string>)

  /** The message sub-schema: `role` is required and one of `user`/`bot`; `content` is a
      required, hence non-empty, string. */
  predicate SchemaValid(m: Message)
  {
    (m.role == Some("user") || m.role == Some("bot")) && Truthy(m.content)
  }

  datatype Chat = Chat(owner: UserId, title: string, messages: seq<Message>, updatedAt: nat)

  /** The collection, the identifier the next insert receives, and the clock that stamps each
      write; writes are stamped with distinct, increasing times. */
  datatype Store = Store(chats: map<ChatId, Chat>, nextId: ChatId, clock: nat)

  predicate Inv(s: Store)
  {
    && (forall id :: id in s.chats ==> id < s.nextId && s.chats[id].updatedAt < s.clock)
    && (forall a, b :: a in s.chats && b in s.chats && s.chats[a].updatedAt == s.chats[b].updatedAt ==> a == b)
  }

  /** `Chat.findOne({ _id, user })`: the chat, only when it belongs to `u`. */
  function FindOwned(s: Store, id: ChatId, u: UserId): (r: Option<Chat>)
    ensures r.Some? <==> id in s.chats && s.chats[id].owner == u
    ensures r.Some? ==> r.value == s.chats[id]
  {
    if id in s.chats && s.chats[id].owner == u then Some(s.chats[id]) else None
  }
}

=== FILE: extraction.dfy ===
/** Recovering the reply object from the text-generation output: three regex
    extractors tried in a fixed order, a whole-string parse when none matches,
    and the normalisation of the parsed value into a list of messages. */
module Extraction {
  import opened Base
  import opened Text
  import opened JsonValue

  /** The object pattern of the third extractor: `{[\s\S]*?}` (first `{` to the next `}`)
      as the endpoint is written, or `{[\s\S]*}` (first `{` to the last `}`). */
  datatype BraceMatch = Lazy | Greedy

  const JsonFence := "```json\n"
  const PlainFence := "```\n"
  const CloseFence := "\n```"

  const ApologyText := "Sorry, I encountered an error processing your message."

  /** The message substituted when a reply cannot be parsed or has no usable `messages`. */
  const ApologyItem: Json :=
    JObj(map["text" := JStr(ApologyText), "facialExpression" := JStr("sad"), "animation" := JStr("Idle")])

  /** `{ messages: [ApologyItem] }`, what a failed `JSON.parse` is replaced by. */
  const ApologyReply: Json := JObj(map["messages" := JArr([ApologyItem])])

  /** A regex match: the whole matched text and the first capture group, if the pattern has one. */
  datatype Match = Match(whole: string, group: Option<string>)

  /** Where `/<open>([\s\S]*?)\n```/` matches: the leftmost opener `i` and the first
      closing fence `j` after it. */
  function FenceSpan(r: string, open: string): (span: Option<(nat, nat)>)
    ensures span.Some? ==>
      && OccursAt(r, open, span.value.0)
      && span.value.0 + |open| <= span.value.1
      && OccursAt(r, CloseFence, span.value.1)
      && (forall k: nat :: k < span.value.0 ==> !OccursAt(r, open, k))
      && (forall k: nat :: span.value.0 + |open| <= k < span.value.1 ==> !OccursAt(r, CloseFence, k))
    ensures span.None? ==>
      forall i: nat, j: nat :: OccursAt(r, open, i) && i + |open| <= j ==> !OccursAt(r, CloseFence, j)
  {
    match IndexOf(r, open, 0)
    case None => None
    case Some(i) =>
      match IndexOf(r, CloseFence, i + |open|)
      case None => None
      case Some(j) => Some((i, j))
  }

  function FenceMatch(r: string, open: string): Option<Match>
  {
    match FenceSpan(r, open)
    case None => None
    case Some((i, j)) => Some(Match(r[i..j + |CloseFence|], Some(r[i + |open|..j])))
  }

  /** Where the object pattern matches: the first `{` at `i` and, after it, the next `}`
      (lazy) or the last `}` (greedy) at `j`. */
  function BraceSpan(r: string, mode: BraceMatch): (span: Option<(nat, nat)>)
    ensures span.Some? ==>
      && span.value.0 < span.value.1 < |r|
      && r[span.value.0] == '{' && r[span.value.1] == '}'
      && (forall k :: 0 <= k < span.value.0 ==> r[k] != '{')
    ensures span.Some? && mode.Lazy? ==> forall k :: span.value.0 < k < span.value.1 ==> r[k] != '}'
    ensures span.Some? && mode.Greedy? ==> forall k :: span.value.1 < k < |r| ==> r[k] != '}'
    ensures span.None? ==> forall i, j :: 0 <= i < j < |r| && r[i] == '{' ==> r[j] != '}'
  {
    match FindChar(r, '{', 0)
    case None => None
    case Some(i) =>
      match mode
      case Lazy =>
        (match FindChar(r, '}', i + 1)
         case None => None
         case Some(j) => Some((i, j)))
      case Greedy =>
        (match FindLastChar(r, '}', |r|)
         case Some(j) => if j > i then Some((i, j)) else None
         case None => None)
  }

  function BraceMatchOf(r: string, mode: BraceMatch): Option<Match>
  {
    match BraceSpan(r, mode)
    case None => None
    case Some((i, j)) => Some(Match(r[i..j + 1], None))
  }

  /** The `||` chain of the three extractors, in priority order: a ```json fence wins, a
      plain fence is used only without one, and the object pattern only without either. */
  function FirstMatch(r: string, mode: BraceMatch): (m: Option<Match>)
    ensures m.None? <==> FenceSpan(r, JsonFence).None? && FenceSpan(r, PlainFence).None? && BraceSpan(r, mode).None?
    ensures FenceSpan(r, JsonFence).Some? ==>
      var (i, j) := FenceSpan(r, JsonFence).value;
      m == Some(Match(r[i..j + |CloseFence|], Some(r[i + |JsonFence|..j])))
    ensures FenceSpan(r, JsonFence).None? && FenceSpan(r, PlainFence).Some? ==>
      var (i, j) := FenceSpan(r, PlainFence).value;
      m == Some(Match(r[i..j + |CloseFence|], Some(r[i + |PlainFence|..j])))
    ensures FenceSpan(r, JsonFence).None? && FenceSpan(r, PlainFence).None? && BraceSpan(r, mode).Some? ==>
      m == Some(Match(r[BraceSpan(r, mode).value.0..BraceSpan(r, mode).value.1 + 1], None))
    ensures m.Some? && m.value.group.None? ==>
      && FenceSpan(r, JsonFence).None? && FenceSpan(r, PlainFence).None? && BraceSpan(r, mode).Some?
      && m.value.whole == r[BraceSpan(r, mode).value.0..BraceSpan(r, mode).value.1 + 1]
  {
    match FenceMatch(r, JsonFence)
    case Some(m) => Some(m)
    case None =>
      match FenceMatch(r, PlainFence)
      case Some(m) => Some(m)
      case None => BraceMatchOf(r, mode)
  }

  /** `jsonMatch[1] || jsonMatch[0]`: the capture when it is non-empty, else the whole match. */
  function MatchText(m: Match): string
  {
    if m.group.Some? && m.group.value != "" then m.group.value else m.whole
  }

  /** The parsed reply: the matched candidate's parse, the whole string's parse when no
      extractor matched, and `ApologyReply` when the parse attempted fails. */
  function ParseReply(raw: string, parse: string -> Option<Json>, mode: BraceMatch): (r: Json)
    ensures FirstMatch(raw, mode).Some? ==>
      r == ApologyReply || parse(MatchText(FirstMatch(raw, mode).value)) == Some(r)
    ensures FirstMatch(raw, mode).Some? && parse(MatchText(FirstMatch(raw, mode).value)).None? ==>
      r == ApologyReply
    ensures FirstMatch(raw, mode).None? ==> r == ApologyReply || parse(raw) == Some(r)
    ensures FirstMatch(raw, mode).None? && parse(raw).None? ==> r == ApologyReply
    ensures FirstMatch(raw, mode).Some? && parse(MatchText(FirstMatch(raw, mode).value)).Some? ==>
      r == parse(MatchText(FirstMatch(raw, mode).value)).value
    ensures FirstMatch(raw, mode).None? && parse(raw).Some? ==> r == parse(raw).value
  {
    match FirstMatch(raw, mode)
    case Some(m) =>
      (match parse(MatchText(m))
       case Some(v) => v
       case None => ApologyReply)
    case None =>
      (match parse(raw)
       case Some(v) => v
       case None => ApologyReply)
  }

  /** `parsedResponse.messages || [parsedResponse]`, then the array check.
      `None` is the `TypeError` of reading a property of `null`. */
  function Normalise(parsed: Json): (items: Option<seq<Json>>)
    ensures items.None? <==> parsed.JNull?
    ensures !parsed.JNull? && parsed.Get("messages").Some? && parsed.Get("messages").value.Truthy() ==>
      items == Some(if parsed.Get("messages").value.JArr? then parsed.Get("messages").value.items else [ApologyItem])
    ensures !parsed.JNull? && !(parsed.Get("messages").Some? && parsed.Get("messages").value.Truthy()) ==>
      items == Some([parsed])
  {
    if parsed.JNull? then None
    else
      var m := parsed.Get("messages");
      var messages := if m.Some? && m.value.Truthy() then m.value else JArr([parsed]);
      if messages.JArr? then Some(messages.items) else Some([ApologyItem])
  }

  /** Once an extractor has matched, the whole-string parse is never consulted: two parsers
      that agree on the candidate give the same result, and a candidate that does not
      parse gives the apology reply. */
  lemma MatchedCandidateDecides(raw: string, p1: string -> Option<Json>, p2: string -> Option<Json>, mode: BraceMatch)
    requires FirstMatch(raw, mode).Some?
    requires p1(MatchText(FirstMatch(raw, mode).value)) == p2(MatchText(FirstMatch(raw, mode).value))
    ensures ParseReply(raw, p1, mode) == ParseReply(raw, p2, mode)
    ensures p1(MatchText(FirstMatch(raw, mode).value)).None? ==> ParseReply(raw, p1, mode) == ApologyReply
  {
  }

  /** The apology reply normalises to the single apology message. */
  lemma ApologyNormalises()
    ensures Normalise(ApologyReply) == Some([ApologyItem])
  {
    assert ApologyReply.Get("messages") == Some(JArr([ApologyItem]));
  }

  /** A reply fenced as ```json, with nothing before it that could start a fence, yields
      exactly the fenced body as the candidate, whatever follows. */
  lemma JsonFencedBody(pre: string, body: string, post: string)
    requires '`' !in pre && '`' !in body && body != ""
    ensures FirstMatch(pre + JsonFence + body + CloseFence + post, Lazy).Some?
    ensures FirstMatch(pre + JsonFence + body + CloseFence + post, Greedy).Some?
    ensures MatchText(FirstMatch(pre + JsonFence + body + CloseFence + post, Lazy).value) == body
    ensures MatchText(FirstMatch(pre + JsonFence + body + CloseFence + post, Greedy).value) == body
  {
    var r := pre + JsonFence + body + CloseFence + post;
    var i := |pre|;
    var lo := i + |JsonFence|;
    var j := lo + |body|;
    assert r[..i] == pre;
    assert r[i..lo] == JsonFence;
    assert r[lo..j] == body;
    assert r[j..j + |CloseFence|] == CloseFence;
    NoFenceInPrefix(r, pre, JsonFence);
    IndexOfFirst(r, JsonFence, 0, i);
    NoCloseFenceInBody(r, lo, body);
    IndexOfFirst(r, CloseFence, lo, j);
    assert FenceSpan(r, JsonFence) == Some((i, j));
  }

  /** Text without a backtick cannot hold the start of a fence. */
  lemma NoFenceInPrefix(r: string, pre: string, open: string)
    requires |pre| <= |r| && r[..|pre|] == pre && '`' !in pre
    requires |open| > 0 && open[0] == '`'
    ensures forall k: nat :: k < |pre| ==> !OccursAt(r, open, k)
  {
    forall k: nat | k < |pre| ensures !OccursAt(r, open, k) {
      assert r[..|pre|][k] == r[k];
      MismatchBlocks(r, open, k, 0);
    }
  }

  /** No closing fence starts inside a backtick-free body that the closing fence follows. */
  lemma NoCloseFenceInBody(r: string, lo: nat, body: string)
    requires lo + |body| + |CloseFence| <= |r|
    requires r[lo..lo + |body|] == body && '`' !in body
    requires r[lo + |body|..lo + |body| + |CloseFence|] == CloseFence
    ensures forall k :: lo <= k < lo + |body| ==> !OccursAt(r, CloseFence, k)
  {
    var j := lo + |body|;
    forall k | lo <= k < j ensures !OccursAt(r, CloseFence, k) {
      if k + 1 < j {
        assert r[lo..j][k + 1 - lo] == r[k + 1];
      } else {
        assert r[j..j + |CloseFence|][0] == r[k + 1];
      }
      MismatchBlocks(r, CloseFence, k, 1);
    }
  }

  /** Number of `c` characters outside JSON string literals, scanning from the given
      lexer state (inside a string literal, right after a backslash). */
  function CountOutside(s: string, c: char, inString: bool, escaped: bool): nat
    decreases |s|
  {
    if |s| == 0 then 0
    else
      var x := s[0];
      var here := if !inString && x == c then 1 else 0;
      if !inString then here + CountOutside(s[1..], c, x == '"', false)
      else if escaped then CountOutside(s[1..], c, true, false)
      else if x == '\\' then CountOutside(s[1..], c, true, true)
      else if x == '"' then CountOutside(s[1..], c, false, false)
      else CountOutside(s[1..], c, true, false)
  }

  function CountAll(s: string, c: char): nat
    decreases |s|
  {
    if |s| == 0 then 0 else (if s[0] == c then 1 else 0) + CountAll(s[1..], c)
  }

  lemma {:induction false} CountOutsideAtMostAll(s: string, c: char, inString: bool, escaped: bool)
    ensures CountOutside(s, c, inString, escaped) <= CountAll(s, c)
    decreases |s|
  {
    if |s| > 0 {
      var x := s[0];
      if !inString {
        CountOutsideAtMostAll(s[1..], c, x == '"', false);
      } else if escaped {
        CountOutsideAtMostAll(s[1..], c, true, false);
      } else if x == '\\' {
        CountOutsideAtMostAll(s[1..], c, true, true);
      } else if x == '"' {
        CountOutsideAtMostAll(s[1..], c, false, false);
      } else {
        CountOutsideAtMostAll(s[1..], c, true, false);
      }
    }
  }

  /** A string whose only `c` is its last character holds exactly one `c`. */
  lemma {:induction false} CountAllOnlyAtEnd(s: string, c: char)
    requires |s| >= 1 && s[|s| - 1] == c
    requires forall k :: 0 <= k < |s| - 1 ==> s[k] != c
    ensures CountAll(s, c) == 1
    decreases |s|
  {
    if |s| > 1 {
      CountAllOnlyAtEnd(s[1..], c);
    }
  }

  /** What every `JSON.parse` guarantees about the text it accepts: braces outside
      string literals are balanced. */
  ghost predicate BalancedParse(parse: string -> Option<Json>)
  {
    forall s :: parse(s).Some? ==> CountOutside(s, '{', false, false) == CountOutside(s, '}', false, false)
  }

  /** As written, an unfenced reply whose object nests another object before its first `}`
      (the shape the prompt asks for: `{"messages":[{...}]}`) always falls back: the lazy
      pattern stops at the first `}`, the candidate is unbalanced, and the whole-string
      parse is never tried. */
  lemma LazyBraceRejectsNestedObject(raw: string, parse: string -> Option<Json>, i: nat, j: nat)
    requires '`' !in raw
    requires BalancedParse(parse)
    requires BraceSpan(raw, Lazy) == Some((i, j))
    requires CountOutside(raw[i..j + 1], '{', false, false) >= 2
    ensures ParseReply(raw, parse, Lazy) == ApologyReply
  {
    NoBacktickNoFence(raw);
    var c := raw[i..j + 1];
    assert FirstMatch(raw, Lazy) == Some(Match(c, None));
    CountAllOnlyAtEnd(c, '}');
    CountOutsideAtMostAll(c, '}', false, false);
  }

  /** The greedy pattern spans from the first `{` to the last `}`: an object with no `{`
      before it and no `}` after it is exactly the span. */
  lemma GreedyObjectSpan(p: string, obj: string, q: string)
    requires '{' !in p && '}' !in q
    requires |obj| >= 2 && obj[0] == '{' && obj[|obj| - 1] == '}'
    ensures BraceSpan(p + obj + q, Greedy) == Some((|p|, |p| + |obj| - 1))
  {
    var r := p + obj + q;
    assert r[|p|] == '{';
    assert forall k :: 0 <= k < |p| ==> r[k] == p[k];
    assert FindChar(r, '{', 0) == Some(|p|);
    var j := |p| + |obj| - 1;
    assert r[j] == '}';
    assert forall k :: j < k < |r| ==> r[k] == q[k - |p| - |obj|];
    assert FindLastChar(r, '}', |r|) == Some(j);
  }

  /** With the greedy pattern, an unfenced object surrounded by text that holds no `{`
      before it and no `}` after it is recovered exactly. */
  lemma GreedyBraceRecoversObject(p: string, obj: string, q: string, parse: string -> Option<Json>, v: Json)
    requires '`' !in p + obj + q
    requires '{' !in p && '}' !in q
    requires |obj| >= 2 && obj[0] == '{' && obj[|obj| - 1] == '}'
    requires parse(obj) == Some(v)
    ensures ParseReply(p + obj + q, parse, Greedy) == v
  {
    var r := p + obj + q;
    NoBacktickNoFence(r);
    GreedyObjectSpan(p, obj, q);
    assert r[|p|..|p| + |obj|] == obj;
  }

  /** A JSON string literal without quotes or backslashes inside contributes nothing to
      the count and leaves the scanner outside strings. */
  lemma {:induction false} StringBodySkipped(w: string, rest: string, c: char)
    requires '"' !in w && '\\' !in w
    ensures CountOutside(w + "\"" + rest, c, true, false) == CountOutside(rest, c, false, false)
    decreases |w|
  {
    if |w| > 0 {
      assert (w + "\"" + rest)[1..] == w[1..] + "\"" + rest;
      StringBodySkipped(w[1..], rest, c);
    } else {
      assert (w + "\"" + rest)[1..] == rest;
    }
  }

  /** An object whose first member is an array that starts with an object opens two
      braces outside string literals before anything can close them. */
  lemma NestedOpening(key: string, rest: string)
    requires '"' !in key && '\\' !in key
    ensures CountOutside("{\"" + key + "\":[{" + rest, '{', false, false) >= 2
  {
    var afterKey := ":[{" + rest;
    var c := "{\"" + key + "\":[{" + rest;
    var quoted := "\"" + key + "\"" + afterKey;
    assert c[0] == '{' && c[1..] == quoted;
    assert CountOutside(c, '{', false, false) == 1 + CountOutside(quoted, '{', false, false);
    assert quoted[0] == '"' && quoted[1..] == key + "\"" + afterKey;
    StringBodySkipped(key, afterKey, '{');
    assert CountOutside(quoted, '{', false, false) == CountOutside(afterKey, '{', false, false);
    assert afterKey[0] == ':' && afterKey[1..] == "[{" + rest;
    assert ("[{" + rest)[0] == '[' && ("[{" + rest)[1..] == "{" + rest;
    assert ("{" + rest)[0] == '{' && ("{" + rest)[1..] == rest;
    assert CountOutside(afterKey, '{', false, false) == CountOutside("[{" + rest, '{', false, false);
    assert CountOutside("[{" + rest, '{', false, false) == CountOutside("{" + rest, '{', false, false);
    assert CountOutside("{" + rest, '{', false, false) == 1 + CountOutside(rest, '{', false, false);
  }

  /** The finding in general form: an unfenced reply `{"key":[{body}...` whose first member is
      an array of objects falls back under the lazy pattern, whatever follows the first `}`. */
  lemma UnfencedNestedReplyFallsBack(key: string, body: string, tail: string, parse: string -> Option<Json>)
    requires '"' !in key && '\\' !in key && '}' !in key && '}' !in body
    requires '`' !in key && '`' !in body && '`' !in tail
    requires BalancedParse(parse)
    ensures ParseReply("{\"" + key + "\":[{" + body + "}" + tail, parse, Lazy) == ApologyReply
  {
    var head := "{\"" + key + "\":[{" + body;
    var raw := head + "}" + tail;
    assert raw == "{\"" + key + "\":[{" + body + "}" + tail;
    assert forall k :: 0 <= k < |head| ==> raw[k] == head[k];
    assert '}' !in head;
    assert raw[|head|] == '}';
    assert FindChar(raw, '{', 0) == Some(0);
    assert FindChar(raw, '}', 1) == Some(|head|);
    assert raw[0..|head| + 1] == "{\"" + key + "\":[{" + (body + "}");
    NestedOpening(key, body + "}");
    LazyBraceRejectsNestedObject(raw, parse, 0, |head|);
  }

  /** The reply format the prompt asks for, sent without a code fence:
      `{"messages":[{"text":"Hi"}]}` falls back to the apology reply. */
  lemma RequestedShapeFallsBack(parse: string -> Option<Json>)
    requires BalancedParse(parse)
    ensures ParseReply("{\"messages\":[{\"text\":\"Hi\"}]}", parse, Lazy) == ApologyReply
  {
    assert "{\"messages\":[{\"text\":\"Hi\"}]}" == "{\"" + "messages" + "\":[{" + "\"text\":\"Hi\"" + "}" + "]}";
    UnfencedNestedReplyFallsBack("messages", "\"text\":\"Hi\"", "]}", parse);
  }

  lemma NoBacktickNoFence(r: string)
    requires '`' !in r
    ensures FenceMatch(r, JsonFence).None? && FenceMatch(r, PlainFence).None?
  {
    forall k: nat ensures !OccursAt(r, JsonFence, k) && !OccursAt(r, PlainFence, k) {
      if k < |r| {
        assert r[k] != '`';
      }
      if k + |JsonFence| <= |r| {
        assert r[k..k + |JsonFence|][0] == r[k];
      }
      if k + |PlainFence| <= |r| {
        assert r[k..k + |PlainFence|][0] == r[k];
      }
    }
  }
}

=== FILE: json_value.dfy ===
/** JSON values as `JSON.parse` produces them and `res.send` serialises them. */
module JsonValue {
  import opened Base

  datatype Json =
    | JNull
    | JBool(b: bool)
    | JNum(n: real)
    | JStr(s: string)
    | JArr(items: seq<Json>)
    | JObj(props: map<string, Json>)
  {
    /** JavaScript truthiness: `null`, `false`, `0` and `""` are falsy. */
    predicate Truthy()
    {
      match this
      case JNull => false
      case JBool(b) => b
      case JNum(n) => n != 0.0
      case JStr(s) => s != ""
      case _ => true
    }

    /** Property read `v[k]` on a value that is not `null`: only objects carry JSON properties. */
    function Get(k: string): Option<Json>
      requires !JNull?
    {
      if JObj? && k in props then Some(props[k]) else None
    }

    /** An object whose property `k` is `v`. */
    predicate Has(k: string, v: Json)
    {
      JObj? && k in props && props[k] == v
    }
  }
}

=== FILE: lipsync.dfy ===
/** Lip-sync transcripts: the phoneme-timing documents sent with each reply,
    the two hard-coded fallback documents, and their JSON encoding. */
module Lipsync {
  import opened Base
  import opened JsonValue

  /** One mouth shape (`value`, a Rhubarb viseme letter) starting at `time` seconds. */
  datatype Cue = Cue(time: real, value: string)

  datatype Transcript = Transcript(soundFile: string, duration: real, cues: seq<Cue>)

  /** The document `createFallbackFiles` writes to `audios/fallback.json` when it is missing. */
  const SixCueFallback: Transcript :=
    Transcript("fallback.wav", 1.0,
      [Cue(0.0, "X"), Cue(0.2, "A"), Cue(0.4, "B"), Cue(0.6, "C"), Cue(0.8, "A"), Cue(1.0, "X")])

  /** The document `readJsonTranscript` returns when a file cannot be read or parsed. */
  const ThreeCueFallback: Transcript :=
    Transcript("fallback.wav", 1.0, [Cue(0.0, "X"), Cue(0.5, "A"), Cue(1.0, "X")])

  /** Cue times never go backwards and run from 0 to the document's duration. */
  predicate WellTimed(t: Transcript)
  {
    && |t.cues| >= 1
    && t.cues[0].time == 0.0
    && t.cues[|t.cues| - 1].time == t.duration
    && forall i, j :: 0 <= i < j < |t.cues| ==> t.cues[i].time <= t.cues[j].time
  }

  /** The mouth is closed (`X`) at the first and the last cue. */
  predicate SilentAtEnds(t: Transcript)
  {
    |t.cues| >= 1 && t.cues[0].value == "X" && t.cues[|t.cues| - 1].value == "X"
  }

  lemma FallbacksWellFormed()
    ensures WellTimed(SixCueFallback) && SilentAtEnds(SixCueFallback)
    ensures WellTimed(ThreeCueFallback) && SilentAtEnds(ThreeCueFallback)
    ensures SixCueFallback.duration == 1.0 && ThreeCueFallback.duration == 1.0
  {
  }

  function CueJson(c: Cue): Json
  {
    JObj(map["time" := JNum(c.time), "value" := JStr(c.value)])
  }

  function CuesJson(cs: seq<Cue>): (vs: seq<Json>)
    ensures |vs| == |cs|
  {
    seq(|cs|, i requires 0 <= i < |cs| => CueJson(cs[i]))
  }

  /** The JSON document: `{metadata: {soundFile, duration}, mouthCues: [{time, value}, ...]}`. */
  function ToJson(t: Transcript): Json
  {
    JObj(map[
      "metadata" := JObj(map["soundFile" := JStr(t.soundFile), "duration" := JNum(t.duration)]),
      "mouthCues" := JArr(CuesJson(t.cues))])
  }

  function CueFromJson(v: Json): Option<Cue>
  {
    if v.JObj? && "time" in v.props && "value" in v.props
       && v.props["time"].JNum? && v.props["value"].JStr?
    then Some(Cue(v.props["time"].n, v.props["value"].s))
    else None
  }

  function CuesFromJson(vs: seq<Json>): Option<seq<Cue>>
  {
    if |vs| == 0 then Some([])
    else match (CueFromJson(vs[0]), CuesFromJson(vs[1..]))
      case (Some(c), Some(cs)) => Some([c] + cs)
      case _ => None
  }

  /** Reads a transcript back from its JSON document; `None` when the document has another shape. */
  function FromJson(v: Json): Option<Transcript>
  {
    if v.JObj? && "metadata" in v.props && "mouthCues" in v.props then
      var m := v.props["metadata"];
      var cues := v.props["mouthCues"];
      if m.JObj? && "soundFile" in m.props && "duration" in m.props
         && m.props["soundFile"].JStr? && m.props["duration"].JNum? && cues.JArr?
      then
        match CuesFromJson(cues.items)
        case Some(cs) => Some(Transcript(m.props["soundFile"].s, m.props["duration"].n, cs))
        case None => None
      else None
    else None
  }

  lemma {:induction false} CuesRoundTrip(cs: seq<Cue>)
    ensures CuesFromJson(CuesJson(cs)) == Some(cs)
  {
    if |cs| > 0 {
      assert CuesJson(cs)[1..] == CuesJson(cs[1..]);
      CuesRoundTrip(cs[1..]);
      assert [cs[0]] + cs[1..] == cs;
    }
  }

  /** Encoding a transcript as JSON loses nothing. */
  lemma TranscriptRoundTrip(t: Transcript)
    ensures FromJson(ToJson(t)) == Some(t)
  {
    CuesRoundTrip(t.cues);
  }

  /** `readJsonTranscript`: the file's parsed content, or the three-cue document when
      the file is missing or is not valid JSON (`file == None`); it never throws. */
  function ReadJsonTranscript(file: Option<Json>): (v: Json)
    ensures file.None? ==> FromJson(v) == Some(ThreeCueFallback)
    ensures file.Some? ==> v == file.value
  {
    TranscriptRoundTrip(ThreeCueFallback);
    match file
    case Some(doc) => doc
    case None => ToJson(ThreeCueFallback)
  }
}

=== FILE: text.dfy ===
/** String primitives used by the backend, with JavaScript's semantics:
    `toLowerCase` (ASCII part), `includes`, `indexOf`, `split(' ')` and
    `substring(0, n)`. */
module Text {
  import opened Base

  /** ASCII lower-casing of one character; other characters are unchanged. */
  function LowerChar(c: char): char
  {
    if 'A' <= c <= 'Z' then (c as int + 32) as char else c
  }

  /** ASCII upper-casing of one character; other characters are unchanged. */
  function UpperChar(c: char): char
  {
    if 'a' <= c <= 'z' then (c as int - 32) as char else c
  }

  function Lower(s: string): (r: string)
    ensures |r| == |s|
    ensures forall i :: 0 <= i < |s| ==> r[i] == LowerChar(s[i])
  {
    seq(|s|, i requires 0 <= i < |s| => LowerChar(s[i]))
  }

  function Upper(s: string): (r: string)
    ensures |r| == |s|
    ensures forall i :: 0 <= i < |s| ==> r[i] == UpperChar(s[i])
  {
    seq(|s|, i requires 0 <= i < |s| => UpperChar(s[i]))
  }

  /** Lower-casing forgets any earlier change of case. */
  lemma LowerForgetsCase(s: string)
    ensures Lower(Upper(s)) == Lower(s)
    ensures Lower(Lower(s)) == Lower(s)
  {
  }

  lemma LowerSlice(s: string, i: nat, j: nat)
    requires i <= j <= |s|
    ensures Lower(s)[i..j] == Lower(s[i..j])
  {
  }

  lemma LowerFixesLowerCase(s: string)
    requires forall k :: 0 <= k < |s| ==> !('A' <= s[k] <= 'Z')
    ensures Lower(s) == s
  {
  }

  /** `t` occurs in `s` starting at index `i`. */
  predicate OccursAt(s: string, t: string, i: nat)
  {
    i + |t| <= |s| && s[i..i + |t|] == t
  }

  /** `s.includes(t)`, computed by testing each start position in turn. */
  function Contains(s: string, t: string): bool
    decreases |s|
  {
    if |t| > |s| then false
    else s[..|t|] == t || Contains(s[1..], t)
  }

  /** `Contains` agrees with the declarative reading: some start position matches. */
  lemma {:induction false} ContainsIff(s: string, t: string)
    ensures Contains(s, t) <==> exists i: nat :: OccursAt(s, t, i)
    decreases |s|
  {
    if |t| > |s| {
      forall i: nat ensures !OccursAt(s, t, i) { }
    } else {
      assert OccursAt(s, t, 0) <==> s[..|t|] == t;
      if s[..|t|] != t {
        ContainsIff(s[1..], t);
        forall i: nat
          ensures OccursAt(s[1..], t, i) <==> OccursAt(s, t, i + 1)
        {
          if i + 1 + |t| <= |s| {
            assert s[1..][i..i + |t|] == s[i + 1..i + 1 + |t|];
          }
        }
        if Contains(s, t) {
          var i: nat :| OccursAt(s[1..], t, i);
          assert OccursAt(s, t, i + 1);
        } else {
          forall i: nat ensures !OccursAt(s, t, i) {
            if i > 0 {
              assert !OccursAt(s[1..], t, i - 1);
            }
          }
        }
      }
    }
  }

  /** A string cannot contain a pattern holding a character the string lacks. */
  lemma MissingCharNotContained(s: string, t: string, c: char)
    requires c in t && c !in s
    ensures !Contains(s, t)
  {
    ContainsIff(s, t);
  }

  /** `s.indexOf(t, from)`: the first start position at or after `from` where `t` occurs. */
  function IndexOf(s: string, t: string, from: nat): (r: Option<nat>)
    ensures r.Some? ==> from <= r.value && OccursAt(s, t, r.value)
    ensures r.Some? ==> forall k :: from <= k < r.value ==> !OccursAt(s, t, k)
    ensures r.None? ==> forall k :: from <= k ==> !OccursAt(s, t, k)
    decreases |s| - from
  {
    if from + |t| > |s| then None
    else if s[from..from + |t|] == t then Some(from)
    else IndexOf(s, t, from + 1)
  }

  /** `IndexOf` answers the first occurrence: a position where `t` occurs, with no occurrence
      between `from` and it, is what it returns. */
  lemma IndexOfFirst(s: string, t: string, from: nat, i: nat)
    requires from <= i && OccursAt(s, t, i)
    requires forall k :: from <= k < i ==> !OccursAt(s, t, k)
    ensures IndexOf(s, t, from) == Some(i)
  {
  }

  /** A position whose character differs from `t[n]` at offset `n` is no occurrence of `t`. */
  lemma MismatchBlocks(s: string, t: string, k: nat, n: nat)
    requires n < |t| && k + n < |s| && s[k + n] != t[n]
    ensures !OccursAt(s, t, k)
  {
  }

  /** The first index at or after `from` holding character `c`. */
  function FindChar(s: string, c: char, from: nat): (r: Option<nat>)
    ensures r.Some? ==> from <= r.value < |s| && s[r.value] == c
    ensures r.Some? ==> forall k :: from <= k < r.value ==> s[k] != c
    ensures r.None? ==> forall k :: from <= k < |s| ==> s[k] != c
    decreases |s| - from
  {
    if from >= |s| then None
    else if s[from] == c then Some(from)
    else FindChar(s, c, from + 1)
  }

  /** The last index below `upto` holding character `c`. */
  function FindLastChar(s: string, c: char, upto: nat): (r: Option<nat>)
    requires upto <= |s|
    ensures r.Some? ==> r.value < upto && s[r.value] == c
    ensures r.Some? ==> forall k :: r.value < k < upto ==> s[k] != c
    ensures r.None? ==> forall k :: 0 <= k < upto ==> s[k] != c
  {
    if upto == 0 then None
    else if s[upto - 1] == c then Some(upto - 1)
    else FindLastChar(s, c, upto - 1)
  }

  /** `s.split(d)` for a one-character separator: the maximal pieces between separators. */
  function Split(s: string, d: char): (fields: seq<string>)
    ensures |fields| >= 1
    ensures forall k :: 0 <= k < |fields| ==> d !in fields[k]
    decreases |s|
  {
    match FindChar(s, d, 0)
    case None => [s]
    case Some(i) =>
      assert forall k :: 0 <= k < i ==> s[..i][k] == s[k];
      [s[..i]] + Split(s[i + 1..], d)
  }

  /** `fields.join(d)`, the inverse of `Split`. */
  function Join(fields: seq<string>, d: char): string
    requires |fields| >= 1
  {
    if |fields| == 1 then fields[0] else fields[0] + [d] + Join(fields[1..], d)
  }

  /** Joining the pieces of a split gives back the original string. */
  lemma {:induction false} JoinSplit(s: string, d: char)
    ensures Join(Split(s, d), d) == s
    decreases |s|
  {
    match FindChar(s, d, 0)
    case None =>
    case Some(i) =>
      var rest := Split(s[i + 1..], d);
      assert Split(s, d) == [s[..i]] + rest;
      assert (Split(s, d))[1..] == rest;
      JoinSplit(s[i + 1..], d);
      assert s == s[..i] + [d] + s[i + 1..];
  }

  /** Splitting a join of separator-free pieces gives back exactly those pieces. */
  lemma {:induction false} SplitJoin(fields: seq<string>, d: char)
    requires |fields| >= 1
    requires forall k :: 0 <= k < |fields| ==> d !in fields[k]
    ensures Split(Join(fields, d), d) == fields
    decreases |fields|
  {
    if |fields| > 1 {
      var f := fields[0];
      var rest := Join(fields[1..], d);
      var s := Join(fields, d);
      assert s == f + [d] + rest;
      assert forall k :: 0 <= k < |f| ==> s[k] == f[k] && s[k] != d;
      assert s[|f|] == d;
      assert FindChar(s, d, 0) == Some(|f|);
      assert s[..|f|] == f;
      assert s[|f| + 1..] == rest;
      SplitJoin(fields[1..], d);
      assert [f] + fields[1..] == fields;
    } else {
      assert FindChar(fields[0], d, 0).None?;
    }
  }

  /** `s.substring(0, n)`: the first `n` characters, or all of `s` when it is shorter. */
  function Prefix(s: string, n: nat): (r: string)
    ensures |r| == if |s| < n then |s| else n
    ensures r <= s
  {
    if |s| <= n then s else s[..n]
  }
}

=== FILE: users.dfy ===
/** The user collection: documents with a unique email, passwords stored as an HMAC-SHA256
    digest keyed by a per-user random salt, and the login check. The salt source and the
    digest are parameters. */
module Users {
  import opened Base
  import opened AuthService

  const DefaultProfileImage := "/images/default.png"

  datatype User = User(fullName: string, email: string, salt: string, password: string,
                       profileImageURL: string, role: Role)

  /** The stored documents by `_id`; `nextId` is the identifier the next insert receives. */
  datatype UserDb = UserDb(records: map<UserId, User>, nextId: UserId)

  /** The unique index on `email`. */
  predicate EmailsUnique(db: UserDb)
  {
    forall a, b :: a in db.records && b in db.records && db.records[a].email == db.records[b].email ==> a == b
  }

  predicate Valid(db: UserDb)
  {
    (forall id :: id in db.records ==> id < db.nextId) && EmailsUnique(db)
  }

  /** Different passwords give different digests under the same key. */
  ghost predicate HmacInjective(hmac: (string, string) -> string)
  {
    forall k, a, b {:trigger hmac(k, a), hmac(k, b)} :: hmac(k, a) == hmac(k, b) ==> a == b
  }

  /** Every stored digest is the HMAC, under its salt, of the password `plain` remembers. */
  predicate PasswordsHashed(db: UserDb, hmac: (string, string) -> string, plain: map<UserId, string>)
  {
    forall id :: id in db.records ==> id in plain && db.records[id].password == hmac(db.records[id].salt, plain[id])
  }

  /** A document about to be saved; `passwordModified` is Mongoose's `isModified('password')`. */
  datatype Draft = Draft(fullName: string, email: string, password: string, profileImageURL: string,
                         role: Role, passwordModified: bool)

  /** The pre-save hook. A modified password is replaced by its digest under a fresh salt. For an
      unmodified one the hook returns without calling `next`, so that save never completes:
      `None`. Only `create` saves users, and a new document's password is always modified. */
  function PreSave(doc: Draft, salt: string, hmac: (string, string) -> string): (u: Option<User>)
    ensures u.Some? <==> doc.passwordModified
    ensures u.Some? ==>
      && u.value.salt == salt && u.value.password == hmac(salt, doc.password)
      && u.value.fullName == doc.fullName && u.value.email == doc.email
      && u.value.profileImageURL == doc.profileImageURL && u.value.role == doc.role
  {
    if !doc.passwordModified then None
    else Some(User(doc.fullName, doc.email, salt, hmac(salt, doc.password), doc.profileImageURL, doc.role))
  }

  /** `findOne({ email })` over the identifiers `k..nextId`, in insertion order. */
  function FindFrom(db: UserDb, email: string, k: nat): (r: Option<UserId>)
    ensures r.Some? ==>
      && k <= r.value && r.value in db.records && db.records[r.value].email == email
      && forall j :: k <= j < r.value && j in db.records ==> db.records[j].email != email
    ensures r.None? ==> forall j :: k <= j < db.nextId && j in db.records ==> db.records[j].email != email
    decreases db.nextId - k
  {
    if k >= db.nextId then None
    else if k in db.records && db.records[k].email == email then Some(k)
    else FindFrom(db, email, k + 1)
  }

  function FindByEmail(db: UserDb, email: string): Option<UserId>
  {
    FindFrom(db, email, 0)
  }

  /** With unique emails, the lookup finds exactly the user holding the email, or nobody. */
  lemma FindByEmailIff(db: UserDb, email: string, id: UserId)
    requires Valid(db)
    ensures FindByEmail(db, email) == Some(id) <==> id in db.records && db.records[id].email == email
    ensures FindByEmail(db, email).None? <==> forall j :: j in db.records ==> db.records[j].email != email
  {
  }

  datatype SignupRequest = SignupRequest(fullName: Option<string>, email: Option<string>, password: Option<string>)

  /** `User.create`: a validation error, the duplicate-key error of the unique index, or the new user. */
  datatype CreateOutcome = ValidationError | DuplicateKey | Created(id: UserId, db: UserDb)

  /** A `required` string path rejects a missing value and the empty string. */
  predicate RequiredPresent(req: SignupRequest)
  {
    Truthy(req.fullName) && Truthy(req.email) && Truthy(req.password)
  }

  function Create(db: UserDb, req: SignupRequest, salt: string, hmac: (string, string) -> string): (r: CreateOutcome)
    ensures r.ValidationError? <==> !RequiredPresent(req)
    ensures r.DuplicateKey? <==> RequiredPresent(req) && FindByEmail(db, req.email.value).Some?
    ensures r.Created? ==>
      && r.id == db.nextId && r.db.nextId == db.nextId + 1
      && r.db.records == db.records[r.id := User(req.fullName.value, req.email.value, salt,
                                                 hmac(salt, req.password.value), DefaultProfileImage, USER)]
  {
    if !RequiredPresent(req) then ValidationError
    else if FindByEmail(db, req.email.value).Some? then DuplicateKey
    else
      var draft := Draft(req.fullName.value, req.email.value, req.password.value, DefaultProfileImage, USER, true);
      var u := PreSave(draft, salt, hmac).value;
      Created(db.nextId, db.(records := db.records[db.nextId := u], nextId := db.nextId + 1))
  }

  /** Creating a user keeps emails unique and every digest tied to its plain password. */
  lemma CreatePreservesInvariants(db: UserDb, req: SignupRequest, salt: string,
                                  hmac: (string, string) -> string, plain: map<UserId, string>)
    requires Valid(db) && PasswordsHashed(db, hmac, plain)
    requires Create(db, req, salt, hmac).Created?
    ensures Valid(Create(db, req, salt, hmac).db)
    ensures PasswordsHashed(Create(db, req, salt, hmac).db, hmac,
                            plain[Create(db, req, salt, hmac).id := req.password.value])
  {
    var r := Create(db, req, salt, hmac);
    assert FindByEmail(db, req.email.value).None?;
    forall a, b | a in r.db.records && b in r.db.records && r.db.records[a].email == r.db.records[b].email
      ensures a == b
    {
      if a != r.id && b != r.id {
        assert db.records[a].email == db.records[b].email;
      }
    }
  }

  const UserNotFound := "User not found"
  const WrongPassword := "Incorrect email or password"

  /** `matchPasswordAndGenerateToken`: the digest of the offered password under the stored salt
      must equal the stored digest. */
  function MatchPasswordAndGenerateToken(db: UserDb, email: string, password: string,
                                         hmac: (string, string) -> string,
                                         now: nat, secret: string, jwt: Jwt): (r: Result<string>)
    ensures FindByEmail(db, email).None? ==> r == Failure(UserNotFound)
    ensures FindByEmail(db, email).Some? ==>
      var id := FindByEmail(db, email).value;
      var u := db.records[id];
      if hmac(u.salt, password) == u.password
      then r == Success(CreateTokenForUser(id, u.email, u.fullName, u.role, now, secret, jwt))
      else r == Failure(WrongPassword)
  {
    match FindByEmail(db, email)
    case None => Failure(UserNotFound)
    case Some(id) =>
      var u := db.records[id];
      if hmac(u.salt, password) != u.password then Failure(WrongPassword)
      else Success(CreateTokenForUser(id, u.email, u.fullName, u.role, now, secret, jwt))
  }

  /** Login for a stored email succeeds exactly with the password that was hashed for it. */
  lemma LoginIffPassword(db: UserDb, email: string, q: string, hmac: (string, string) -> string,
                         plain: map<UserId, string>, now: nat, secret: string, jwt: Jwt)
    requires Valid(db) && PasswordsHashed(db, hmac, plain) && HmacInjective(hmac)
    requires FindByEmail(db, email).Some?
    ensures MatchPasswordAndGenerateToken(db, email, q, hmac, now, secret, jwt).Success?
            <==> q == plain[FindByEmail(db, email).value]
  {
    var id := FindByEmail(db, email).value;
    var u := db.records[id];
    assert u.password == hmac(u.salt, plain[id]);
  }
}

=== FILE: vision.dfy ===
/** The environment-vision step of the chat endpoint: the trigger-phrase test,
    the handling of the vision service's answer, and the prompt rewrite. */
module Vision {
  import opened Base
  import opened Text

  /** The nine trigger phrases, all lower case. */
  const Triggers: seq<string> := [
    "visualize",
    "look around",
    "what do you see",
    "describe surroundings",
    "describe environment",
    "what's around",
    "scan environment",
    "analyze surroundings",
    "check surroundings"
  ]

  /** Camera stream used when the request names none. */
  const DefaultVideoUrl := "http://10.52.26.19:8080/video"

  const VisionPrefix := "Based on what I'm seeing in the environment: "
  const VisionSuffix := ". Please respond naturally as a co-passenger describing what you see."
  const CameraFailure :=
    "I tried to look around but I'm having trouble accessing the camera right now. Let me know if you need anything else!"

  /** `triggers.some(t => lower.includes(t))` over the triggers from index `k` on. */
  function AnyTriggerFrom(lower: string, k: nat): bool
    requires k <= |Triggers|
    decreases |Triggers| - k
  {
    k < |Triggers| && (Contains(lower, Triggers[k]) || AnyTriggerFrom(lower, k + 1))
  }

  /** `shouldTriggerVision`: a case-insensitive substring test against the trigger phrases. */
  predicate ShouldTriggerVision(message: string)
  {
    AnyTriggerFrom(Lower(message), 0)
  }

  lemma {:induction false} AnyTriggerFromIff(lower: string, k: nat)
    requires k <= |Triggers|
    ensures AnyTriggerFrom(lower, k) <==> exists i :: k <= i < |Triggers| && Contains(lower, Triggers[i])
    decreases |Triggers| - k
  {
    if k < |Triggers| {
      AnyTriggerFromIff(lower, k + 1);
    }
  }

  /** The trigger test holds exactly when the lower-cased message contains a trigger phrase
      at some position, and it ignores changes of case. */
  lemma ShouldTriggerVisionIff(message: string)
    ensures ShouldTriggerVision(message) <==>
      exists i, p: nat :: 0 <= i < |Triggers| && OccursAt(Lower(message), Triggers[i], p)
    ensures ShouldTriggerVision(Upper(message)) == ShouldTriggerVision(message)
    ensures ShouldTriggerVision(Lower(message)) == ShouldTriggerVision(message)
  {
    AnyTriggerFromIff(Lower(message), 0);
    forall i | 0 <= i < |Triggers| {
      ContainsIff(Lower(message), Triggers[i]);
    }
    LowerForgetsCase(message);
  }

  /** Every trigger phrase is already lower case. */
  lemma TriggerIsLowerCase(i: nat)
    requires i < |Triggers|
    ensures Lower(Triggers[i]) == Triggers[i]
  {
    if i == 0 { LowerFixesLowerCase(Triggers[0]); }
    else if i == 1 { LowerFixesLowerCase(Triggers[1]); }
    else if i == 2 { LowerFixesLowerCase(Triggers[2]); }
    else if i == 3 { LowerFixesLowerCase(Triggers[3]); }
    else if i == 4 { LowerFixesLowerCase(Triggers[4]); }
    else if i == 5 { LowerFixesLowerCase(Triggers[5]); }
    else if i == 6 { LowerFixesLowerCase(Triggers[6]); }
    else if i == 7 { LowerFixesLowerCase(Triggers[7]); }
    else { LowerFixesLowerCase(Triggers[8]); }
  }

  /** A message holding a trigger phrase, in any surroundings, triggers the vision step. */
  lemma EmbeddedTriggerTriggers(p: string, i: nat, q: string)
    requires i < |Triggers|
    ensures ShouldTriggerVision(p + Triggers[i] + q)
  {
    var t := Triggers[i];
    var m := p + t + q;
    assert m[|p|..|p| + |t|] == t;
    LowerSlice(m, |p|, |p| + |t|);
    TriggerIsLowerCase(i);
    assert OccursAt(Lower(m), t, |p|);
    ContainsIff(Lower(m), t);
    AnyTriggerFromIff(Lower(m), 0);
  }

  lemma LookAroundTriggers()
    ensures ShouldTriggerVision("Can you " + "look around" + " and tell me what's outside?")
  {
    EmbeddedTriggerTriggers("Can you ", 1, " and tell me what's outside?");
  }

  /** No trigger phrase fits in a text that lacks all of the letters `v l d o c n`. */
  lemma NoTriggerWithoutLetters(lower: string)
    requires 'v' !in lower && 'l' !in lower && 'd' !in lower
    requires 'o' !in lower && 'c' !in lower && 'n' !in lower
    ensures !AnyTriggerFrom(lower, 0)
  {
    MissingCharNotContained(lower, Triggers[0], 'v');
    MissingCharNotContained(lower, Triggers[1], 'l');
    MissingCharNotContained(lower, Triggers[2], 'd');
    MissingCharNotContained(lower, Triggers[3], 'd');
    MissingCharNotContained(lower, Triggers[4], 'd');
    MissingCharNotContained(lower, Triggers[5], 'o');
    MissingCharNotContained(lower, Triggers[6], 'c');
    MissingCharNotContained(lower, Triggers[7], 'n');
    MissingCharNotContained(lower, Triggers[8], 'c');
    AnyTriggerFromIff(lower, 0);
  }

  lemma WeatherLowered(m: string)
    requires m == "What's the weather"
    ensures Lower(m) == "what's the weather"
  {
    var tail := "hat's the weather";
    assert m == "W" + tail;
    LowerFixesLowerCase(tail);
  }

  lemma WeatherDoesNotTrigger(m: string)
    requires m == "What's the weather"
    ensures !ShouldTriggerVision(m)
  {
    WeatherLowered(m);
    NoTriggerWithoutLetters(Lower(m));
  }

  /** What came back from `POST /analyze-environment`: a JSON answer, a 60 s timeout
      (`ECONNABORTED`), or any other transport or HTTP error. */
  datatype VisionAnswer =
    | Answered(success: bool, description: Option<string>)
    | TimedOut
    | TransportError

  /** `callVisionService`: never throws; the description only when the service reports success. */
  function CallVisionService(answer: VisionAnswer): (d: Option<string>)
    ensures d.Some? <==> answer.Answered? && answer.success && answer.description.Some?
    ensures d.Some? ==> d == answer.description
  {
    match answer
    case Answered(true, description) => description
    case _ => None
  }

  /** The message that replaces a triggering one: the description wrapped in fixed text,
      or the camera-failure sentence when there is no (non-empty) description. */
  function RewriteMessage(description: Option<string>): (m: string)
    ensures m != ""
    ensures Truthy(description) ==> m == VisionPrefix + description.value + VisionSuffix
    ensures !Truthy(description) ==> m == CameraFailure
  {
    if Truthy(description) then VisionPrefix + description.value + VisionSuffix else CameraFailure
  }
}
